=== FILE: README.md ===
# oculoenv task core in Dafny

oculoenv is an oculomotor test environment. An agent turns a camera that
looks at a square content panel. Each step, the camera's forward ray is cut
with the panel, and the resulting gaze point drives one of six tasks:

- point to a target;
- detect a change among memorised sprites;
- find the odd sign in a grid;
- search for a target letter;
- track a memorised ball among moving balls;
- report the drift direction of random dots.

Each task is a phase machine (START marker, then task-specific phases). A
step returns reward, done, whether to repaint, and an info record.

This project models that core as pure functions over immutable state:

- `Utils`: clamping, angle conversion, and the random-draw conventions.
- `Geom`: the row-major 4x4 matrix type.
- `BaseContent`: the square sprite and its closed-box hit test. Also the
  step-count bookkeeping that wraps every task.
- One module per task:
  - `PointToTarget`
  - `ChangeDetection`
  - `OddOneOut`
  - `VisualSearch`
  - `MultipleObjectTracking`
  - `RandomDot`
- `Environment`: camera angles, the gaze projection, and the reset/step
  order.

Conventions used throughout:

- **Random draws are arguments.** A draw `u` in [0, 1) stands for one call
  to the random source:
  - `Uniform(lo, hi, u)` is `np.random.uniform`.
  - `RandInt(lo, hi, u)` is `randint` or `random.choice`.
  - A permutation argument is `random.shuffle`, and its prefix is
    `random.sample`.
- **`sin` and `cos` are arguments.** They come in as a `Geom.Trig` record
  of two functions on `real`.
- **Each task's `Step` works the same way.** It takes the task state, the
  step count `BaseContent.step` passes in, the gaze point and the draws. It
  returns the next state and a `StepResult(reward, done, needRender, info)`.
- **Constructors that assert a difficulty bound** return `None` when the
  upper bound fails. A difficulty is a `nat`, so the negative difficulties
  the source's `difficulty < range` assertions let through are not part
  of the model (see "## Left out").

Where the documentation and the code disagree, the model follows the code:

- The odd-one-out test expects a repaint every 4 frames. The code's
  `MOTION_INTERVAL_FRAMES` is 2, and `OddOneOut.MotionRepaintsEverySecondStep`
  follows the code.
- The point-to-target test passes a `difficulty` argument that the
  constructor does not have. The model has no such parameter.
- `ChangeDetectionContent._reset` does nothing, so a reset does not return
  the cycle to START. There is no `Reset` for that task.
- `utils.rad2deg` carries a sign flip, so it is not the inverse of
  `deg2rad` (`Utils.Rad2DegNegatesDeg2Rad`).
- Odd-one-out signs test hits against 0.8 of the cell's half-width, around
  the cell centre. Every other sprite uses its full half-width around its
  drawn position.

## Model

| member | source | states |
|---|---|---|
| Utils.Clamp | oculoenv/utils.py:40-41 | for lo <= hi the result lies in [lo, hi], equals n when n is inside, and equals the violated bound otherwise; for lo > hi it is lo |
| Utils.ClampIdempotent | oculoenv/utils.py:40-41 | clamping an already clamped value changes nothing |
| Utils.Deg2Rad | oculoenv/utils.py:49-51 | a positive angle in degrees stays positive in radians |
| Utils.Rad2Deg | oculoenv/utils.py:44-46 | a positive angle in radians becomes negative in degrees (the sign flip) |
| Utils.Rad2DegNegatesDeg2Rad | oculoenv/utils.py:44-51 | converting to radians and back yields the negated angle |
| Utils.Uniform | oculoenv/contents/point_to_target_content.py:30-44 | `np.random.uniform(lo, hi)` lands between the two bounds, whichever is larger |
| Utils.RandInt | oculoenv/contents/multiple_object_tracking_content.py:188 | `np.random.randint(lo, hi)` lands in [lo, hi) |
| Utils.DealCount | oculoenv/contents/visual_search_content.py:124-129 | 2 + difficulty when a difficulty is set, else a count drawn from [2, 2 + range) |
| Utils.Without | oculoenv/contents/change_detection_content.py:322-327 | the candidates for a "different value" re-draw: members of the list, never the current value, every other member present |
| Utils.WithoutLength | oculoenv/contents/change_detection_content.py:322-327 | on a duplicate-free list exactly one candidate is removed when the current value occurs, none otherwise |
| Geom.SetTrans | oculoenv/geom.py:18-25 | the first three columns are unchanged; entry (i, 3) becomes v[i] for i < len(v) and keeps its old value beyond |
| Geom.Transform | oculoenv/geom.py:27-37 | each output entry is the row's inner product with v, a 3-vector being extended by 1.0 |
| Geom.GetAxis | oculoenv/geom.py:78-88 | the first three entries of column k |
| Geom.Mul | oculoenv/geom.py:101-109 | entry (i, j) is row i of the left times column j of the right |
| Geom.RawGl | oculoenv/geom.py:111-117 | the column-major flattening: raw[4j + i] is entry (i, j) |
| Geom.MulIdentity | oculoenv/geom.py:11-16 | `Matrix4()` is a left and right unit of `mul` |
| Geom.RotXComposition | oculoenv/geom.py:39-50 | composing two x-rotations gives the x-rotation whose sine and cosine follow the angle-addition formulas |
| Geom.RotationsTurnAxes | oculoenv/geom.py:39-76 | for (s, c) of an angle, `set_rot_x` turns z to (0, -s, c), `set_rot_y` turns x to (c, 0, -s), `set_rot_z` turns y to (-s, c, 0) |
| Geom.RawGlOfTranslation | oculoenv/geom.py:111-117 | a translation written into the identity lands at indices 12-14 of the OpenGL array |
| BaseContent.Contains | oculoenv/contents/base_content.py:65-80 | the hit test is the closed box: both coordinate distances at most the half-width |
| BaseContent.CentreInside | oculoenv/contents/base_content.py:65-80 | a sprite of non-negative width contains its own centre |
| BaseContent.SetPos | oculoenv/contents/base_content.py:58-60 | only the position changes, and the sprite then contains the new position iff its width is non-negative |
| BaseContent.SetWidth | oculoenv/contents/base_content.py:62-63 | only the half-width changes |
| BaseContent.ApartBoxesShareNoPoint | oculoenv/contents/base_content.py:65-80 | boxes with a gap between them never both contain the gaze point |
| BaseContent.InteriorsDisjointShareNoInnerPoint | oculoenv/contents/base_content.py:65-80 | no point lies strictly inside two boxes whose interiors are disjoint |
| BaseContent.DetectAnswer | oculoenv/contents/visual_search_content.py:166-174 | the answer is NO iff the gaze is on the NO button and YES iff it is on the YES button |
| BaseContent.BottomButtonsApart | oculoenv/contents/visual_search_content.py:94-99 | the NO and YES buttons are apart, so testing NO first decides nothing |
| BaseContent.Reset | oculoenv/contents/base_content.py:127-131 | the task's `_reset` runs, the step count becomes 0, and one render follows |
| BaseContent.Construct | oculoenv/contents/base_content.py:84-111 | construction is `_init` followed by `reset` |
| BaseContent.Step | oculoenv/contents/base_content.py:133-139 | `_step` sees the count before the increment, the count grows by exactly one, a render follows iff need_render, and reward/done/info pass through |
| BaseContent.Run | oculoenv/contents/base_content.py:133-139 | n consecutive steps return n replies and advance the count by n |
| BaseContent.RunReportsDone | oculoenv/contents/base_content.py:133-135 | the k-th reply of a run is computed with step count (start + k) |
| BaseContent.EpisodeEndsOnLastStep | oculoenv/contents/base_content.py:127-135 | after a reset, done is false on calls 1..10799 and true on call 10800 |
| PointToTarget.RandomLocation | oculoenv/contents/point_to_target_content.py:30-44 | x lies in [cx-wl+tw, cx+wr-tw] and y in [cy-wb+tw, cy+wt-tw] |
| PointToTarget.LocationInQuadrant | oculoenv/contents/point_to_target_content.py:53-83 | a location drawn in a margin quadrant keeps its box outside the marker and inside the panel, on that quadrant's side of each axis |
| PointToTarget.DistinctQuadrantsApart | oculoenv/contents/point_to_target_content.py:53-83 | boxes drawn in two different quadrants are apart |
| PointToTarget.SizeWidth | oculoenv/contents/point_to_target_content.py:95-112 | the width is 0.1 iff the size is "small", else 0.2 |
| PointToTarget.Init | oculoenv/contents/point_to_target_content.py:87-113 | black "E" target and lure (the lure a quarter turn), widths chosen by the size strings, START |
| PointToTarget.Reset | oculoenv/contents/point_to_target_content.py:115-116 | back to START with the sprites kept |
| PointToTarget.LocateTargets | oculoenv/contents/point_to_target_content.py:155-168 | the target is clear of the marker; with a lure, the lure is also clear and apart from the target; without one the lure is untouched |
| PointToTarget.Step | oculoenv/contents/point_to_target_content.py:118-141 | reward is in {0,1,2}: 2 on the target, else 1 on a used lure, else 0, and never 1 without a lure; a marker hit moves to TARGET; a positive reward returns to START; render iff the phase changes; placement invariant kept; the info is empty (see Left out) |
| ChangeDetection.CentersEvenlySpaced | oculoenv/contents/change_detection_content.py:52-67 | the eight centres are -0.7 + 0.2 i |
| ChangeDetection.Cell | oculoenv/contents/change_detection_content.py:52-67 | every grid centre lies in [-0.7, 0.7]² |
| ChangeDetection.DistinctCellsApart | oculoenv/contents/change_detection_content.py:52-74 | distinct cells are at least a cell width apart on one axis |
| ChangeDetection.TargetCount | oculoenv/contents/change_detection_content.py:145-150 | 2 + difficulty when set, else a count in [2, 7) |
| ChangeDetection.ChooseTexture | oculoenv/contents/change_detection_content.py:155 | the texture is the "E" or the box |
| ChangeDetection.PrepareTargets | oculoenv/contents/change_detection_content.py:145-164 | that many sprites on distinct cells, pairwise interior-disjoint, of half-width 0.1, unrotated, with a target colour and one of the two textures |
| ChangeDetection.KindCount | oculoenv/contents/change_detection_content.py:280-285 | a box has two changeable attributes, an "E" three |
| ChangeDetection.ChangeColor | oculoenv/contents/change_detection_content.py:322-327 | only the colour changes, to a different target colour |
| ChangeDetection.ChangeTexture | oculoenv/contents/change_detection_content.py:329-333 | only the texture changes, box and "E" swapping |
| ChangeDetection.ChangeRotation | oculoenv/contents/change_detection_content.py:335-341 | only the rotation changes, to a different index in 0..3 |
| ChangeDetection.ApplyChange | oculoenv/contents/change_detection_content.py:272-293 | a change happens iff the draw reaches 0.6; it alters exactly one attribute of exactly one sprite; a box is never rotated; without a change the sprites are untouched |
| ChangeDetection.DetectHit | oculoenv/contents/change_detection_content.py:348-354 | YES iff the gaze is on the YES box, NO iff on the NO box, none otherwise |
| ChangeDetection.Rank | oculoenv/contents/change_detection_content.py:123-137 | each phase has a place in the four-phase cycle |
| ChangeDetection.Init | oculoenv/contents/change_detection_content.py:80-111 | fresh valid sprites, START |
| ChangeDetection.AnswerReward | oculoenv/contents/change_detection_content.py:299-305 | reward 1 iff YES on a change or NO on none, else 0 |
| ChangeDetection.Step | oculoenv/contents/change_detection_content.py:113-140 | the phase stays or moves to the next one in the cycle; render iff it moves; each phase's completion condition; one change on entering EVALUATION, made iff the draw reaches 0.6, with the reaction count at 0; an unanswered EVALUATION step keeps the sprites and `changed` and counts one more reaction step; fresh sprites only on leaving it; reward and info only from EVALUATION, the info carrying the counted reaction steps |
| ChangeDetection.Run | oculoenv/contents/change_detection_content.py:113-140 | a run of steps keeps the task valid |
| ChangeDetection.LearningLasts | oculoenv/contents/change_detection_content.py:214-227 | LEARNING renders on exactly its 20th step and then hands over to INTERVAL |
| ChangeDetection.IntervalLasts | oculoenv/contents/change_detection_content.py:237-249 | INTERVAL keeps the sprites, renders on exactly its 10th step, and then enters EVALUATION |
| OddOneOut.SignVariables | oculoenv/contents/odd_one_out_content.py:212-248 | colour class: same texture, two distinct colours; shape: textures {0,1}, odd = 1 - main; orientation: textures {2,3}, odd = 5 - main; motion: textures {2,3}, same texture and colour, odd sign moves |
| OddOneOut.OddDiffersInOneAttribute | oculoenv/contents/odd_one_out_content.py:212-248 | in every class the odd sign differs from the others in exactly one attribute |
| OddOneOut.CellWidth | oculoenv/contents/odd_one_out_content.py:54-56 | the half-width is 1/n |
| OddOneOut.CellCentre | oculoenv/contents/odd_one_out_content.py:54-56 | -1 + w(1 + 2i) lies in [-1 + w, 1 - w] |
| OddOneOut.MotionOffset | oculoenv/contents/odd_one_out_content.py:86-103 | a horizontal bar moves vertically, other textures horizontally, position 0 on the negative side |
| OddOneOut.SetMotionPos | oculoenv/contents/odd_one_out_content.py:86-103 | only the drawn position changes |
| OddOneOut.MakeSign | oculoenv/contents/odd_one_out_content.py:42-84 | cell width and centre, given attributes, motion state at 0; a still sign is jittered by at most 0.15 of the cell |
| OddOneOut.SignContains | oculoenv/contents/odd_one_out_content.py:119-136 | closed box of 0.8 of the half-width around the cell centre, not the drawn position |
| OddOneOut.CentreSignHitBox | tests/contents/odd_one_out_content_test.py:35-57 | the centre sign of the 3x3 grid contains the centre and points 3/4 of a cell out, not the cell edge |
| OddOneOut.SignStep | oculoenv/contents/odd_one_out_content.py:105-117 | a still sign never changes; a moving sign repaints iff its counter reaches 2, and then flips its position index and clears the counter |
| OddOneOut.MotionRepaintsEverySecondStep | oculoenv/contents/odd_one_out_content.py:105-117 | over k calls a moving sign repaints exactly on every second call and flips position each time |
| OddOneOut.StillSignNeverRepaints | oculoenv/contents/odd_one_out_content.py:105-117 | a sign without motion never asks for a repaint and never changes |
| OddOneOut.GridSigns | oculoenv/contents/odd_one_out_content.py:164-201 | n² signs on their cells, exactly one odd, all others with the main texture and colour and no motion |
| OddOneOut.PrepareSigns | oculoenv/contents/odd_one_out_content.py:164-201 | a grid of 3, 5 or 7 whose attributes satisfy the drawn class's invariant |
| OddOneOut.CheckOddHit | oculoenv/contents/odd_one_out_content.py:206-210 | true iff some odd sign's hit box contains the point |
| OddOneOut.OddHitIsTheOddSign | oculoenv/contents/odd_one_out_content.py:164-210 | with one odd sign the hit test asks about that sign alone |
| OddOneOut.StepSigns | oculoenv/contents/odd_one_out_content.py:257-262 | every sign steps once; a repaint is due iff some sign asks for one |
| OddOneOut.StepSignsKeepsGrid | oculoenv/contents/odd_one_out_content.py:105-136 | stepping keeps the grid valid and moves no hit box |
| OddOneOut.OnlyTheOddSignRepaints | oculoenv/contents/odd_one_out_content.py:164-201 | a repaint can only come from a moving odd sign |
| OddOneOut.Init | oculoenv/contents/odd_one_out_content.py:145-162 | a valid first grid, START |
| OddOneOut.Reset | oculoenv/contents/odd_one_out_content.py:203-204 | back to START with the grid kept |
| OddOneOut.Step | oculoenv/contents/odd_one_out_content.py:250-283 | a marker hit deals a fresh grid and enters FIND; in FIND reward is 1 iff the odd sign's box holds the gaze, which ends the trial with success and the reaction step; otherwise info is empty; every FIND step steps every sign, and a step without a hit renders iff some sign asks for a repaint |
| VisualSearch.SignVariables | oculoenv/contents/visual_search_content.py:104-122 | (0, 0) iff a target is dealt and this is position 0; colour distractors are texture 0 with colour in [1, 5); shape distractors texture in [1, 8) with colour 0 |
| VisualSearch.ConjunctionNotTarget | oculoenv/contents/visual_search_content.py:117-121 | a conjunction index in [1, 40) decodes to a valid pair that is never the target |
| VisualSearch.ConjunctionCoversAllDistractors | oculoenv/contents/visual_search_content.py:117-121 | every non-target pair is some conjunction index, decoding inverts 5·tex + colour |
| VisualSearch.CellCentre | oculoenv/contents/visual_search_content.py:47-55 | the centre lies in [-0.8 + w, 0.8 - w] |
| VisualSearch.MakeSign | oculoenv/contents/visual_search_content.py:42-57 | x from pos mod 7, y from pos div 7 |
| VisualSearch.DistinctCellsApart | oculoenv/contents/visual_search_content.py:42-57 | signs on different cells are a cell width apart on one axis |
| VisualSearch.PrepareSigns | oculoenv/contents/visual_search_content.py:124-146 | signs on distinct cells, a target only in first place and only when dealt, every other sign a distractor |
| VisualSearch.TargetPresent | oculoenv/contents/visual_search_content.py:151-152 | present iff a target was dealt iff some sign is the magenta "T" |
| VisualSearch.Init | oculoenv/contents/visual_search_content.py:74-78 | defined iff the difficulty is unset or below 6 |
| VisualSearch.Reset | oculoenv/contents/visual_search_content.py:148-149 | back to START with the deal kept |
| VisualSearch.Step | oculoenv/contents/visual_search_content.py:154-193 | a marker hit deals and enters FIND; in FIND reward is 1 iff NO without a target or YES with one; any button ends the trial with result and reaction step |
| MultipleObjectTracking.RandomizePos | oculoenv/contents/multiple_object_tracking_content.py:58-63 | both coordinates lie in [-0.7, 0.7] |
| MultipleObjectTracking.RandomizeDirection | oculoenv/contents/multiple_object_tracking_content.py:65-66 | the heading lies in [-pi, pi] |
| MultipleObjectTracking.ConflictFrom | oculoenv/contents/multiple_object_tracking_content.py:102-111 | the loop finds a ball with another index within two radii iff one exists |
| MultipleObjectTracking.CheckIllegal | oculoenv/contents/multiple_object_tracking_content.py:96-112 | illegal iff outside the wall or within two radii of a ball with another index |
| MultipleObjectTracking.MoveFrom | oculoenv/contents/multiple_object_tracking_content.py:122-141 | the roles are kept; the ball either stays or lands on a candidate that passed the check |
| MultipleObjectTracking.Move | oculoenv/contents/multiple_object_tracking_content.py:122-141 | at most 200 attempts; the ball stays put or commits a legal candidate |
| MultipleObjectTracking.MoveKeepsApart | oculoenv/contents/multiple_object_tracking_content.py:122-152 | moving one ball keeps all balls inside the wall and pairwise apart |
| MultipleObjectTracking.MoveAll | oculoenv/contents/multiple_object_tracking_content.py:229-232 | a move pass keeps the number of balls and their roles |
| MultipleObjectTracking.MoveAllFromKeepsApart | oculoenv/contents/multiple_object_tracking_content.py:229-232 | a move pass from any ball on keeps the balls inside the wall, and apart when they were |
| MultipleObjectTracking.MoveAllKeepsApart | oculoenv/contents/multiple_object_tracking_content.py:229-232 | a full move pass keeps the balls inside the wall, and apart when they were |
| MultipleObjectTracking.ConflictWith | oculoenv/contents/multiple_object_tracking_content.py:86-94 | true iff some other ball is within two radii |
| MultipleObjectTracking.PlaceFrom | oculoenv/contents/multiple_object_tracking_content.py:213-222 | the position stays in the wall; the loop's break guarantees no conflict; a first position without conflict is kept |
| MultipleObjectTracking.PlaceOne | oculoenv/contents/multiple_object_tracking_content.py:213-222 | a placed ball is inside the wall with its roles; a clean exit means no conflict with the earlier balls; the first ball is never checked |
| MultipleObjectTracking.PlaceRest | oculoenv/contents/multiple_object_tracking_content.py:213-222 | all balls get placed inside the wall; if every loop exited through break, they are pairwise apart |
| MultipleObjectTracking.PlaceRestKeepsRoles | oculoenv/contents/multiple_object_tracking_content.py:203-222 | placement never changes a ball's roles |
| MultipleObjectTracking.ExtendSeparated | oculoenv/contents/multiple_object_tracking_content.py:213-222 | a ball clear of a separated group keeps the group separated |
| MultipleObjectTracking.PrepareBalls | oculoenv/contents/multiple_object_tracking_content.py:186-224 | ball 0 alone is memorised, exactly one ball is the response target, which is ball 0 iff the dice says YES; all in the wall, apart on a clean placement |
| MultipleObjectTracking.TargetCorrect | oculoenv/contents/multiple_object_tracking_content.py:226-227 | correct iff the response target is ball 0 |
| MultipleObjectTracking.Init | oculoenv/contents/multiple_object_tracking_content.py:162-184 | defined iff the difficulty is unset or below 6; START with the phase count at 0 |
| MultipleObjectTracking.Reset | oculoenv/contents/multiple_object_tracking_content.py:234-235 | back to START with the phase count cleared |
| MultipleObjectTracking.Step | oculoenv/contents/multiple_object_tracking_content.py:237-291 | marker hit deals balls and enters MEMORY; MEMORY only counts its steps, without moving the balls, and renders only on its 30th step; MOVE makes one move pass per step and renders on each of its 60 steps; separation is kept; RESPONSE rewards NO on a wrong or YES on a right target and ends the trial with result and reaction step; the phase count is cleared on every transition |
| RandomDot.RandomPos | oculoenv/contents/random_dot_content.py:59-63 | both coordinates lie in [-0.6, 0.6] |
| RandomDot.WrapStaysInRange | oculoenv/contents/random_dot_content.py:71-78 | from inside the range, a shift of at most 1.2 wraps back into [-0.6, 0.6], at the shifted place moved by at most one width, and unchanged when no wrap is needed |
| RandomDot.StepDot | oculoenv/contents/random_dot_content.py:71-81 | a coherent dot moves and wraps; any other dot jumps to a fresh random place; coherence is kept |
| RandomDot.StepDotInRange | oculoenv/contents/random_dot_content.py:71-81 | a dot step by at most 1.2 per axis keeps the dot in range |
| RandomDot.StepDots | oculoenv/contents/random_dot_content.py:137-138 | every dot takes one step with its own draw |
| RandomDot.StepDotsInRange | oculoenv/contents/random_dot_content.py:137-138 | a step of all dots keeps them all in range |
| RandomDot.InitialDots | oculoenv/contents/random_dot_content.py:102-105 | 100 coherent dots at random places in range |
| RandomDot.CoherentCount | oculoenv/contents/random_dot_content.py:187-188 | `int(100 * rate)` is at most the number of dots |
| RandomDot.CoherentCounts | oculoenv/contents/random_dot_content.py:182-188 | the five rates give 70, 50, 30, 10 and 5 coherent dots |
| RandomDot.SetCoherence | oculoenv/contents/random_dot_content.py:190-193 | exactly the dots before the count are coherent, positions unchanged |
| RandomDot.ArrowLayout | oculoenv/contents/random_dot_content.py:200-220 | arrow i uses arrow0 iff i is even, quarter turns i div 2 in 0..3, half-width 0.08, placed 0.8 along heading i |
| RandomDot.FirstHit | oculoenv/contents/random_dot_content.py:164-171 | the first arrow containing the point, or none iff no arrow contains it |
| RandomDot.CheckArrowHit | oculoenv/contents/random_dot_content.py:164-171 | NONE iff no arrow contains the point; CORRECT iff the arrow of the current direction contains it and no earlier arrow does |
| RandomDot.Init | oculoenv/contents/random_dot_content.py:88-111 | defined iff the difficulty is unset or below 5; coherent dots in range, eight arrows, direction 0, START |
| RandomDot.Reset | oculoenv/contents/random_dot_content.py:113-114 | back to START; nothing else changes |
| RandomDot.ToResponse | oculoenv/contents/random_dot_content.py:177-197 | a direction in [0, 8), the coherence index from the difficulty or a draw, exactly the first int(100·rate) dots coherent, reaction step 0, RESPONSE |
| RandomDot.Step | oculoenv/contents/random_dot_content.py:116-153 | a marker hit enters RESPONSE; in RESPONSE every step renders, counts a reaction step and moves all dots; reward 1 iff CORRECT; info only on an arrow hit, which returns to START |
| Environment.ResetCamera | oculoenv/environment.py:100-104 | h = 0 and v = 10 degrees, within limits |
| Environment.ChangeAngle | oculoenv/environment.py:115-123 | after the turn both angles are within ±45 degrees; each axis is the sum when in range and the violated bound otherwise, independently of the other axis |
| Environment.ChangeAngleAtRest | oculoenv/environment.py:115-123 | a zero turn of an in-limit camera changes nothing |
| Environment.ForwardVec | oculoenv/environment.py:106-113 | the negated z axis of the camera matrix |
| Environment.ForwardVecSpelledOut | oculoenv/environment.py:93-113 | with the y-rotation by h times the x-rotation by v, the forward ray is (-sin h cos v, sin v, -cos h cos v) |
| Environment.LocalFocus | oculoenv/environment.py:206-215 | the gaze point scaled by tz is the forward ray's (x, y) scaled by 3, and with tz > 0 the signs of x and y are kept |
| Environment.FocusOfAngles | oculoenv/environment.py:93-215 | the gaze point in terms of the camera angles' sines and cosines |
| Environment.EnvReset | oculoenv/environment.py:193-204 | the content is reset (count 0), then the camera; the observed angles are (0, 10 degrees) |
| Environment.EnvInit | oculoenv/environment.py:140-167 | construction ends with a reset |
| Environment.EnvStep | oculoenv/environment.py:233-244 | the camera turns first, the gaze comes from the turned camera, the content steps once with it, and reward, done and info pass through unchanged |

## Left out

- `PointToTarget.Step`: does not model the `ValueError` of the code as
  written. `PointToTargetContent._step` returns three values, and
  `BaseContent.step` unpacks four, so every point-to-target step raises in
  the source. The model returns an empty info in the fourth place, which is
  what the package's own tests of that content and of the environment
  expect.
- Rendering, and loading textures and meshes: everything in `graphics.py`,
  every `render`/`_render`/`bind`, `PlaneObject`, `SceneObject`, the
  screen image of an observation. Textures are opaque tokens, and
  `need_render` is modelled as a flag and a render counter.
- `Matrix4.invert`: it calls into `numpy.linalg`.
- The float32 rounding of rotation matrices, and float rounding in general.
  Reals are exact. Every constant that the code turns into an integer
  (`int(100 * rate)`) is the same in both.
- The brightness of a dot (a Gaussian of its distance): it only affects
  drawing.
- Probabilities: a draw is any value in its range, and nothing is said
  about distributions.
- The watchdog `print` warnings. They appear as the flag returned by
  `MultipleObjectTracking.PlaceFrom`, or as the ball staying put.
- The colour re-draw loop in `_change_color` repeats until the colour
  differs. `ChangeDetection.ChangeColor` models it as one choice among the
  other colours.
- The older `change_detection.py`, the superseded `content.py`, the
  example scripts and packaging.
- Environment.EnvStep: requires the turned camera's forward ray to have a
  non-zero z. Python would divide by zero there; with angles limited to
  ±45° and a real cosine, that never happens.
- Environment.ForwardVec and the other trigonometric members take `sin`
  and `cos` as arbitrary functions. Nothing is claimed that needs their
  actual values, except `RandomDot.Step`, which requires both to lie in
  [-1, 1].
- VisualSearch.Init: negative difficulties are not modelled, because a
  difficulty is a `nat`. The source's `difficulty < 6` assertion accepts
  them, and -1 then deals a single sign.
- MultipleObjectTracking.Init: negative difficulties are not modelled,
  because a difficulty is a `nat`. The source's `difficulty < 6` assertion
  accepts them. -1 gives a single ball, and the later `randint(1, 1)` for
  the response target raises.
- RandomDot.Init: negative difficulties are not modelled, because a
  difficulty is a `nat`. The source's `difficulty < 5` assertion accepts
  -5..-1, and Python's negative indexing then reads the coherence rates
  from the end of the list (-1 gives 5 coherent dots).
- ChangeDetection.Init: negative difficulties are not modelled, because a
  difficulty is a `nat`. The constructor asserts nothing, and -1 gives one
  target and -2 none.
- Utils.DealCount: the count is 2 + difficulty only for a `nat` difficulty.
  A negative one would give fewer than two signs or balls in the source.
- ChangeDetection.ValidDifficulty: a difficulty with more than 64 targets
  makes `random.sample` fail. The model requires the difficulty to fit
  instead of modelling that error.
- `OddOneOutContent.__init__` takes no difficulty, so there is no `None`
  case for it.

=== FILE: base_content.dfy ===
/** The content framework of oculoenv/contents/base_content.py: the square
    `ContentSprite` with its closed-box hit test, and `BaseContent`'s
    step-count bookkeeping around a task's `_step`. */
module BaseContent {
  import opened Utils

  /** Every task ends its episode after 180 * 60 steps (three minutes at 60 Hz). */
  const MaxStepCount: nat := 180 * 60

  /** Half-width of the central "plus" marker every task shows in START. */
  const StartMarkerWidth: real := 0.15

  /** Half-width of the YES/NO buttons below the panel (visual search and
      object tracking). */
  const BottomButtonWidth: real := 0.1

  /** A point in the content panel's own frame; the panel spans [-1, 1]². */
  datatype Point = Point(x: real, y: real)

  datatype Color = Color(r: real, g: real, b: real)

  const White := Color(1.0, 1.0, 1.0)
  const Black := Color(0.0, 0.0, 0.0)

  /** Opaque texture handles, named after the image each is loaded from. */
  datatype Tex =
    | StartMarkerTex  // start_marker0.png
    | GeneralE        // general_e0.png
    | WhiteBox        // white0.png
    | Round           // general_round0.png
    | DotTex          // dot0.png
    | Arrow0          // arrow0.png
    | Arrow1          // arrow1.png

  /** `ContentSprite`: a square of half-width `width` centred at (x, y),
      turned by `rot` quarter turns. */
  datatype Sprite = Sprite(tex: Tex, x: real, y: real, width: real, rot: nat, color: Color)

  /** `ContentSprite.contains`: the closed box around the centre. */
  function Contains(s: Sprite, p: Point): (inside: bool)
    ensures inside <==> Abs(p.x - s.x) <= s.width && Abs(p.y - s.y) <= s.width
  {
    && p.x >= s.x - s.width
    && p.x <= s.x + s.width
    && p.y >= s.y - s.width
    && p.y <= s.y + s.width
  }

  /** The box is closed, so a sprite of non-negative width contains its centre. */
  lemma CentreInside(s: Sprite)
    requires s.width >= 0.0
    ensures Contains(s, Point(s.x, s.y))
  {
  }

  /** `set_pos`: only the position changes. */
  function SetPos(s: Sprite, p: Point): (r: Sprite)
    ensures Contains(r, p) <==> r.width >= 0.0
    ensures r.x == p.x && r.y == p.y
    ensures r.tex == s.tex && r.width == s.width && r.rot == s.rot && r.color == s.color
  {
    s.(x := p.x, y := p.y)
  }

  /** `set_width`: only the half-width changes. */
  function SetWidth(s: Sprite, w: real): (r: Sprite)
    ensures r.width == w
    ensures r.tex == s.tex && r.x == s.x && r.y == s.y && r.rot == s.rot && r.color == s.color
  {
    s.(width := w)
  }

  /** The two closed boxes are separated by a gap along one axis. */
  predicate BoxesApart(a: Sprite, b: Sprite)
  {
    || a.x + a.width < b.x - b.width
    || b.x + b.width < a.x - a.width
    || a.y + a.width < b.y - b.width
    || b.y + b.width < a.y - a.width
  }

  /** Boxes that are apart never both contain the gaze point. */
  lemma ApartBoxesShareNoPoint(a: Sprite, b: Sprite, p: Point)
    requires BoxesApart(a, b)
    ensures !(Contains(a, p) && Contains(b, p))
  {
  }

  /** The open boxes do not overlap (the closed ones may share an edge). */
  predicate InteriorsDisjoint(a: Sprite, b: Sprite)
  {
    Abs(a.x - b.x) >= a.width + b.width || Abs(a.y - b.y) >= a.width + b.width
  }

  /** No point lies strictly inside two boxes whose interiors are disjoint. */
  lemma InteriorsDisjointShareNoInnerPoint(a: Sprite, b: Sprite, p: Point)
    requires InteriorsDisjoint(a, b)
    ensures !(Abs(p.x - a.x) < a.width && Abs(p.y - a.y) < a.width
              && Abs(p.x - b.x) < b.width && Abs(p.y - b.y) < b.width)
  {
  }

  /** The START marker, the same in every task. */
  function StartSprite(): Sprite
  {
    Sprite(StartMarkerTex, 0.0, 0.0, StartMarkerWidth, 0, White)
  }

  /** The NO button (left) of visual search and object tracking. */
  function NoButton(): Sprite
  {
    Sprite(WhiteBox, -0.2, -0.9, BottomButtonWidth, 0, Black)
  }

  /** The YES button (right) of visual search and object tracking. */
  function YesButton(): Sprite
  {
    Sprite(WhiteBox, 0.2, -0.9, BottomButtonWidth, 0, Black)
  }

  /** Checking NO before YES decides nothing: no point hits both. */
  lemma BottomButtonsApart(p: Point)
    ensures BoxesApart(NoButton(), YesButton())
    ensures !(Contains(NoButton(), p) && Contains(YesButton(), p))
  {
  }

  /** Which bottom button the gaze is on. */
  datatype Answer = Unanswered | AnswerNo | AnswerYes

  /** The NO button is tested first; the buttons are apart, so the order
      decides nothing. */
  function DetectAnswer(p: Point): (a: Answer)
    ensures a == AnswerNo <==> Contains(NoButton(), p)
    ensures a == AnswerYes <==> Contains(YesButton(), p)
  {
    BottomButtonsApart(p);
    if Contains(NoButton(), p) then AnswerNo
    else if Contains(YesButton(), p) then AnswerYes
    else Unanswered
  }

  // ---------------------------------------------------------------------
  // BaseContent: step-count bookkeeping around a task's `_step`.
  // ---------------------------------------------------------------------

  /** The `info` dictionary: empty, or the outcome of a finished trial. */
  datatype Info = NoInfo | Trial(success: bool, reactionStep: int)

  /** What a task's `_step` returns. */
  datatype StepResult = StepResult(reward: int, done: bool, needRender: bool, info: Info)

  /** What `BaseContent.step` returns: `need_render` is consumed inside. */
  datatype Reply = Reply(reward: int, done: bool, info: Info)

  /** Every task computes `done = step_count >= MAX_STEP_COUNT - 1`. */
  predicate DoneAt(stepCount: nat)
  {
    stepCount >= MaxStepCount - 1
  }

  /** A task's `_step`: (task state, step count, gaze point) to (new state, result). */
  type StepFn<!S> = (S, nat, Point) -> (S, StepResult)

  /** A `BaseContent` around task state `task`; `renders` counts the calls
      to `render` (the off-screen redraws). */
  datatype Content<S> = Content(task: S, stepCount: nat, renders: nat)

  /** `reset`: the task's `_reset`, then `step_count = 0`, then a render. */
  function Reset<S>(c: Content<S>, reset: S -> S): (r: Content<S>)
    ensures r.task == reset(c.task)
    ensures r.stepCount == 0
    ensures r.renders == c.renders + 1
  {
    Content(reset(c.task), 0, c.renders + 1)
  }

  /** The constructor: `_init` produced `initial`, then `reset` runs. */
  function Construct<S>(initial: S, reset: S -> S): (c: Content<S>)
    ensures c.task == reset(initial) && c.stepCount == 0 && c.renders == 1
  {
    Reset(Content(initial, 0, 0), reset)
  }

  /** `step`: `_step` sees the count before the increment; the count then
      grows by exactly one and a render follows iff `need_render`. */
  function Step<S>(c: Content<S>, focus: Point, inner: StepFn<S>): (r: (Content<S>, Reply))
    ensures r.0.stepCount == c.stepCount + 1
    ensures r.0.task == inner(c.task, c.stepCount, focus).0
    ensures r.0.renders == c.renders + 1 <==> inner(c.task, c.stepCount, focus).1.needRender
    ensures r.0.renders == c.renders <==> !inner(c.task, c.stepCount, focus).1.needRender
    ensures var res := inner(c.task, c.stepCount, focus).1;
      r.1.reward == res.reward && r.1.done == res.done && r.1.info == res.info
  {
    var (task', res) := inner(c.task, c.stepCount, focus);
    var renders' := if res.needRender then c.renders + 1 else c.renders;
    (Content(task', c.stepCount + 1, renders'), Reply(res.reward, res.done, res.info))
  }

  /** A run of consecutive `step` calls, the k-th with gaze `foci[k]` and
      task step `inners[k]` (which carries that call's random draws). */
  function Run<S>(c: Content<S>, foci: seq<Point>, inners: seq<StepFn<S>>): (r: (Content<S>, seq<Reply>))
    requires |foci| == |inners|
    ensures |r.1| == |foci|
    ensures r.0.stepCount == c.stepCount + |foci|
    decreases |foci|
  {
    if |foci| == 0 then (c, [])
    else
      var (c1, reply) := Step(c, foci[0], inners[0]);
      var (cn, replies) := Run(c1, foci[1..], inners[1..]);
      (cn, [reply] + replies)
  }

  /** A task step whose `done` is `DoneAt` of the count it is given. */
  ghost predicate ReportsDoneByCount<S(!new)>(f: StepFn<S>)
  {
    forall s, n, p :: f(s, n, p).1.done == DoneAt(n)
  }

  /** The k-th reply of a run is computed with step count `c.stepCount + k`. */
  lemma {:induction false} RunReportsDone<S(!new)>(c: Content<S>, foci: seq<Point>, inners: seq<StepFn<S>>)
    requires |foci| == |inners|
    requires forall k | 0 <= k < |inners| :: ReportsDoneByCount(inners[k])
    ensures forall k | 0 <= k < |foci| :: Run(c, foci, inners).1[k].done == DoneAt(c.stepCount + k)
    decreases |foci|
  {
    if |foci| > 0 {
      var (c1, reply) := Step(c, foci[0], inners[0]);
      assert ReportsDoneByCount(inners[0]);
      RunReportsDone(c1, foci[1..], inners[1..]);
      forall k | 0 <= k < |foci|
        ensures Run(c, foci, inners).1[k].done == DoneAt(c.stepCount + k)
      {
        if k > 0 {
          assert Run(c, foci, inners).1[k] == Run(c1, foci[1..], inners[1..]).1[k - 1];
        }
      }
    }
  }

  /** Over an episode of 10 800 steps after a reset, `done` is false on every
      call but the last, and true on the last. */
  lemma EpisodeEndsOnLastStep<S(!new)>(c: Content<S>, reset: S -> S, foci: seq<Point>, inners: seq<StepFn<S>>)
    requires |foci| == |inners| == MaxStepCount
    requires forall k | 0 <= k < |inners| :: ReportsDoneByCount(inners[k])
    ensures var replies := Run(Reset(c, reset), foci, inners).1;
      && (forall k | 0 <= k < MaxStepCount - 1 :: !replies[k].done)
      && replies[MaxStepCount - 1].done
  {
    RunReportsDone(Reset(c, reset), foci, inners);
  }
}

=== FILE: change_detection.dfy ===
/** The change-detection task of oculoenv/contents/change_detection_content.py:
    memorise a few sprites on an 8x8 grid, wait, then answer YES if one
    attribute of one sprite changed and NO otherwise. */
module ChangeDetection {
  import opened Utils
  import opened BaseContent

  const TargetChangeThreshold: real := 0.6
  const MaxLearningCount: nat := 20
  const MaxIntervalCount: nat := 10
  const DifficultyRange: nat := 5

  const Magenta := Color(1.0, 0.0, 0.75)
  const Orange := Color(1.0, 0.75, 0.0)
  const LightBlue := Color(0.0, 1.0, 1.0)
  const Blue := Color(0.0, 0.25, 1.0)
  const DeepPurple := Color(0.5, 0.0, 1.0)

  /** The colours a target sprite may take. */
  const TargetColors: seq<Color> := [Magenta, Orange, LightBlue, Blue, DeepPurple]

  /** The rotation indices a sprite may take. */
  const Rotations: seq<nat> := [0, 1, 2, 3]

  // ---------------------------------------------------------------------
  // The 8x8 grid
  // ---------------------------------------------------------------------

  const GridHalfWidth: real := 0.1

  /** The cell centres along either axis, 0.2 apart. */
  const Centers: seq<real> := [-0.7, -0.5, -0.3, -0.1, 0.1, 0.3, 0.5, 0.7]

  lemma CentersEvenlySpaced()
    ensures |Centers| == 8
    ensures forall i | 0 <= i < 8 :: Centers[i] == -0.7 + 0.2 * (i as real)
  {
  }

  /** `EightSquareGrid.grids[k]`: rows by y, x varying fastest. */
  function Cell(k: nat): (p: Point)
    requires k < 64
    ensures -0.7 <= p.x <= 0.7 && -0.7 <= p.y <= 0.7
  {
    CentersEvenlySpaced();
    Point(Centers[k % 8], Centers[k / 8])
  }

  /** Different cells lie at least a cell width apart along one axis. */
  lemma DistinctCellsApart(k1: nat, k2: nat)
    requires k1 < 64 && k2 < 64 && k1 != k2
    ensures Abs(Cell(k1).x - Cell(k2).x) >= 2.0 * GridHalfWidth
         || Abs(Cell(k1).y - Cell(k2).y) >= 2.0 * GridHalfWidth
  {
    CentersEvenlySpaced();
    assert k1 == 8 * (k1 / 8) + k1 % 8;
    assert k2 == 8 * (k2 / 8) + k2 % 8;
    if k1 % 8 != k2 % 8 {
      var a, b := k1 % 8, k2 % 8;
      assert Cell(k1).x - Cell(k2).x == 0.2 * ((a - b) as real);
    } else {
      var a, b := k1 / 8, k2 / 8;
      assert a != b;
      assert Cell(k1).y - Cell(k2).y == 0.2 * ((a - b) as real);
    }
  }

  // ---------------------------------------------------------------------
  // Target sprites
  // ---------------------------------------------------------------------

  /** A target sprite as `_prepare_target_sprites` and the changes leave it. */
  predicate ValidTarget(s: Sprite)
  {
    && s.width == GridHalfWidth
    && (s.tex == GeneralE || s.tex == WhiteBox)
    && s.color in TargetColors
    && s.rot < 4
  }

  predicate ValidTargets(sprites: seq<Sprite>)
  {
    && 2 <= |sprites|
    && (forall i | 0 <= i < |sprites| :: ValidTarget(sprites[i]))
    && (forall i, j | 0 <= i < |sprites| && 0 <= j < |sprites| && i != j ::
          InteriorsDisjoint(sprites[i], sprites[j]))
  }

  /** The draws of one `_prepare_target_sprites`: the count (used when no
      difficulty is set), the shuffled cells, and a texture and a colour
      draw per sprite. */
  datatype Preparation = Preparation(count: real, cells: seq<nat>, tex: seq<real>, color: seq<real>)

  predicate ValidPreparation(d: Preparation)
  {
    && IsUnit(d.count)
    && IsPermutation(d.cells, 64)
    && |d.tex| >= 64 && (forall i | 0 <= i < |d.tex| :: IsUnit(d.tex[i]))
    && |d.color| >= 64 && (forall i | 0 <= i < |d.color| :: IsUnit(d.color[i]))
  }

  /** The difficulty fixes the count; `random.sample` needs it to be at most 64. */
  predicate ValidDifficulty(difficulty: Option<nat>)
  {
    difficulty.Some? ==> 2 + difficulty.value <= 64
  }

  /** The number of targets: 2 + difficulty, or a draw from [2, 7). */
  function TargetCount(difficulty: Option<nat>, u: real): (n: nat)
    requires ValidDifficulty(difficulty) && IsUnit(u)
    ensures 2 <= n <= 64
    ensures difficulty.None? ==> n < 2 + DifficultyRange
    ensures difficulty.Some? ==> n == 2 + difficulty.value
  {
    match difficulty
    case None => RandInt(2, 2 + DifficultyRange, u)
    case Some(d) => 2 + d
  }

  /** `random.choice(self.textures)` over [e-marker, box]. */
  function ChooseTexture(u: real): (tex: Tex)
    requires IsUnit(u)
    ensures tex == GeneralE || tex == WhiteBox
  {
    [GeneralE, WhiteBox][Pick(u, 2)]
  }

  /** `_prepare_target_sprites`: one sprite on each of the first `n` cells of
      the shuffled grid. */
  function PrepareTargets(difficulty: Option<nat>, d: Preparation): (sprites: seq<Sprite>)
    requires ValidDifficulty(difficulty) && ValidPreparation(d)
    ensures |sprites| == TargetCount(difficulty, d.count)
    ensures ValidTargets(sprites)
    ensures forall i | 0 <= i < |sprites| ::
      && sprites[i].x == Cell(d.cells[i]).x && sprites[i].y == Cell(d.cells[i]).y
      && sprites[i].rot == 0
  {
    var n := TargetCount(difficulty, d.count);
    var sprites := seq(n, i requires 0 <= i < n =>
      var c := Cell(d.cells[i]);
      Sprite(ChooseTexture(d.tex[i]), c.x, c.y, GridHalfWidth, 0, TargetColors[Pick(d.color[i], 5)]));
    forall i, j | 0 <= i < n && 0 <= j < n && i != j
      ensures InteriorsDisjoint(sprites[i], sprites[j])
    {
      DistinctCellsApart(d.cells[i], d.cells[j]);
    }
    sprites
  }

  // ---------------------------------------------------------------------
  // The change made on entering EVALUATION
  // ---------------------------------------------------------------------

  /** Exactly one of colour, texture and rotation differs; nothing else does. */
  predicate OneAttributeChanged(a: Sprite, b: Sprite)
  {
    && a.x == b.x && a.y == b.y && a.width == b.width
    && ( || (a.color != b.color && a.tex == b.tex && a.rot == b.rot)
         || (a.color == b.color && a.tex != b.tex && a.rot == b.rot)
         || (a.color == b.color && a.tex == b.tex && a.rot != b.rot))
  }

  /** `after` is `before` with exactly one attribute of sprite `i` changed. */
  predicate OneSpriteChangedAt(before: seq<Sprite>, after: seq<Sprite>, i: nat)
  {
    && i < |before| == |after|
    && after == before[i := after[i]]
    && OneAttributeChanged(before[i], after[i])
  }

  /** The draws of `EvaluationPhase.reset`: change or not, which sprite,
      which attribute, which new value. */
  datatype ChangeDraw = ChangeDraw(keep: real, sprite: real, kind: real, value: real)

  predicate ValidChangeDraw(d: ChangeDraw)
  {
    IsUnit(d.keep) && IsUnit(d.sprite) && IsUnit(d.kind) && IsUnit(d.value)
  }

  /** A box may change colour or texture; an "E" also its rotation. */
  function KindCount(s: Sprite): (n: nat)
    ensures n == 2 <==> s.tex == WhiteBox
    ensures n == 3 <==> s.tex != WhiteBox
  {
    if s.tex == WhiteBox then 2 else 3
  }

  /** `_change_color`: drawing again until the colour differs picks
      uniformly among the other colours. */
  function ChangeColor(s: Sprite, u: real): (r: Sprite)
    requires ValidTarget(s) && IsUnit(u)
    ensures ValidTarget(r) && OneAttributeChanged(s, r) && r.color != s.color
  {
    WithoutLength(TargetColors, s.color);
    var others := Without(TargetColors, s.color);
    s.(color := others[Pick(u, |others|)])
  }

  /** `_change_texture`: box and "E" swap. */
  function ChangeTexture(s: Sprite): (r: Sprite)
    requires ValidTarget(s)
    ensures ValidTarget(r) && OneAttributeChanged(s, r) && r.tex != s.tex
  {
    s.(tex := if s.tex == WhiteBox then GeneralE else WhiteBox)
  }

  /** `_change_rotation`: a uniform choice among the other three indices. */
  function ChangeRotation(s: Sprite, u: real): (r: Sprite)
    requires ValidTarget(s) && IsUnit(u)
    ensures ValidTarget(r) && OneAttributeChanged(s, r) && r.rot != s.rot
  {
    WithoutLength(Rotations, s.rot);
    var others := Without(Rotations, s.rot);
    s.(rot := others[Pick(u, |others|)])
  }

  /** `EvaluationPhase.reset`: with probability 0.6 nothing changes;
      otherwise one attribute of one sprite changes, and a box is never turned. */
  function ApplyChange(sprites: seq<Sprite>, d: ChangeDraw): (r: (bool, seq<Sprite>))
    requires ValidTargets(sprites) && ValidChangeDraw(d)
    ensures ValidTargets(r.1)
    ensures r.0 <==> d.keep >= TargetChangeThreshold
    ensures !r.0 ==> r.1 == sprites
    ensures r.0 ==> exists i :: OneSpriteChangedAt(sprites, r.1, i)
    ensures forall i | 0 <= i < |sprites| && sprites[i].tex == WhiteBox :: r.1[i].rot == sprites[i].rot
  {
    if d.keep < TargetChangeThreshold then (false, sprites)
    else
      var i := Pick(d.sprite, |sprites|);
      var s := sprites[i];
      var kind := Pick(d.kind, KindCount(s));
      var s' := if kind == 0 then ChangeColor(s, d.value)
                else if kind == 1 then ChangeTexture(s)
                else ChangeRotation(s, d.value);
      var after := sprites[i := s'];
      assert OneSpriteChangedAt(sprites, after, i);
      assert forall j | 0 <= j < |after| && j != i :: after[j] == sprites[j];
      (true, after)
  }

  // ---------------------------------------------------------------------
  // Answer buttons
  // ---------------------------------------------------------------------

  datatype Hit = NoHit | Yes | No

  function YesAnswer(): Sprite { Sprite(WhiteBox, -0.9, 0.0, 0.1, 0, Black) }
  function NoAnswer(): Sprite { Sprite(WhiteBox, 0.9, 0.0, 0.1, 0, Black) }

  /** `AnswerState.detect_hit`: YES is tested first, but the two boxes are
      apart, so the order decides nothing. */
  function DetectHit(p: Point): (h: Hit)
    ensures h == Yes <==> Contains(YesAnswer(), p)
    ensures h == No <==> Contains(NoAnswer(), p)
    ensures h == NoHit <==> !Contains(YesAnswer(), p) && !Contains(NoAnswer(), p)
  {
    if Contains(YesAnswer(), p) then Yes
    else if Contains(NoAnswer(), p) then No
    else NoHit
  }

  // ---------------------------------------------------------------------
  // The phase cycle
  // ---------------------------------------------------------------------

  datatype Phase =
    | Start
    | Learning(count: nat)
    | Interval(count: nat)
    | Evaluation(changed: bool, reactionStep: nat)

  /** Position of a phase in the cycle START, LEARNING, INTERVAL, EVALUATION. */
  function Rank(p: Phase): (k: nat)
    ensures k < 4
  {
    match p
    case Start => 0
    case Learning(_) => 1
    case Interval(_) => 2
    case Evaluation(_, _) => 3
  }

  datatype Task = Task(difficulty: Option<nat>, phase: Phase, sprites: seq<Sprite>)

  predicate Valid(t: Task)
  {
    && ValidDifficulty(t.difficulty)
    && ValidTargets(t.sprites)
    && (t.phase.Learning? ==> t.phase.count < MaxLearningCount)
    && (t.phase.Interval? ==> t.phase.count < MaxIntervalCount)
  }

  /** `_init` followed by the (empty) `_reset`: fresh sprites, START. */
  function Init(difficulty: Option<nat>, d: Preparation): (t: Task)
    requires ValidDifficulty(difficulty) && ValidPreparation(d)
    ensures Valid(t) && t.phase == Start && t.difficulty == difficulty
    ensures |t.sprites| == TargetCount(difficulty, d.count)
  {
    Task(difficulty, Start, PrepareTargets(difficulty, d))
  }

  /** The draws one `_step` may consume: a change on entering EVALUATION,
      fresh sprites on leaving it. */
  datatype StepDraws = StepDraws(change: ChangeDraw, prep: Preparation)

  predicate ValidStepDraws(d: StepDraws)
  {
    ValidChangeDraw(d.change) && ValidPreparation(d.prep)
  }

  /** Reward of an answer: right iff YES on a change or NO on none. */
  function AnswerReward(hit: Hit, changed: bool): (reward: int)
    ensures reward == 1 <==> (hit == Yes && changed) || (hit == No && !changed)
    ensures reward == 0 <==> !((hit == Yes && changed) || (hit == No && !changed))
  {
    if hit == Yes && changed then 1
    else if hit == No && !changed then 1
    else 0
  }

  /** `_step`: the current phase steps, then is asked whether it is done;
      a finished phase hands over to the next one, which is reset. */
  function Step(t: Task, stepCount: nat, focus: Point, d: StepDraws): (r: (Task, StepResult))
    requires Valid(t) && ValidStepDraws(d)
    ensures Valid(r.0) && r.0.difficulty == t.difficulty
    ensures r.1.done == DoneAt(stepCount)
    ensures r.1.reward == 0 || r.1.reward == 1
    // the cycle: stay, or move to the next phase, and render exactly on a move
    ensures Rank(r.0.phase) == Rank(t.phase) || Rank(r.0.phase) == (Rank(t.phase) + 1) % 4
    ensures r.1.needRender <==> Rank(r.0.phase) != Rank(t.phase)
    ensures t.phase.Start? ==> (r.1.needRender <==> Contains(StartSprite(), focus))
    ensures t.phase.Learning? ==> (r.1.needRender <==> t.phase.count + 1 == MaxLearningCount)
    ensures t.phase.Interval? ==> (r.1.needRender <==> t.phase.count + 1 == MaxIntervalCount)
    ensures t.phase.Evaluation? ==> (r.1.needRender <==> DetectHit(focus) != NoHit)
    // the sprites: one change on entering EVALUATION, fresh ones on leaving it
    ensures !t.phase.Evaluation? && !(t.phase.Interval? && r.0.phase.Evaluation?) ==> r.0.sprites == t.sprites
    ensures t.phase.Evaluation? && !r.1.needRender ==>
      r.0.sprites == t.sprites && r.0.phase == Evaluation(t.phase.changed, t.phase.reactionStep + 1)
    ensures t.phase.Interval? && r.0.phase.Evaluation? ==>
      && r.0.phase.reactionStep == 0
      && (r.0.phase.changed <==> d.change.keep >= TargetChangeThreshold)
      && (r.0.phase.changed ==> exists i :: OneSpriteChangedAt(t.sprites, r.0.sprites, i))
      && (!r.0.phase.changed ==> r.0.sprites == t.sprites)
    ensures t.phase.Evaluation? && r.1.needRender ==>
      r.0.sprites == PrepareTargets(t.difficulty, d.prep)
    // reward and info
    ensures !t.phase.Evaluation? ==> r.1.reward == 0 && r.1.info == NoInfo
    ensures t.phase.Evaluation? ==>
      && r.1.reward == AnswerReward(DetectHit(focus), t.phase.changed)
      && (r.1.info != NoInfo <==> r.1.needRender)
      && (r.1.needRender ==> r.1.info == Trial(r.1.reward == 1, t.phase.reactionStep + 1))
  {
    var done := DoneAt(stepCount);
    match t.phase
    case Start =>
      if Contains(StartSprite(), focus) then
        (t.(phase := Learning(0)), StepResult(0, done, true, NoInfo))
      else
        (t, StepResult(0, done, false, NoInfo))
    case Learning(n) =>
      if n + 1 >= MaxLearningCount then
        (t.(phase := Interval(0)), StepResult(0, done, true, NoInfo))
      else
        (t.(phase := Learning(n + 1)), StepResult(0, done, false, NoInfo))
    case Interval(n) =>
      if n + 1 >= MaxIntervalCount then
        // The evaluation phase entered here is always a fresh one, so its
        // reaction count is 0 whether or not a change is drawn.
        var (changed, sprites) := ApplyChange(t.sprites, d.change);
        (t.(phase := Evaluation(changed, 0), sprites := sprites), StepResult(0, done, true, NoInfo))
      else
        (t.(phase := Interval(n + 1)), StepResult(0, done, false, NoInfo))
    case Evaluation(changed, reactionStep) =>
      var hit := DetectHit(focus);
      var reward := AnswerReward(hit, changed);
      if hit != NoHit then
        var sprites := PrepareTargets(t.difficulty, d.prep);
        (t.(phase := Start, sprites := sprites),
         StepResult(reward, done, true, Trial(reward == 1, reactionStep + 1)))
      else
        (t.(phase := Evaluation(changed, reactionStep + 1)), StepResult(reward, done, false, NoInfo))
  }

  /** Consecutive `_step` calls with gaze `foci[k]` and draws `ds[k]`. */
  function Run(t: Task, stepCount: nat, foci: seq<Point>, ds: seq<StepDraws>): (r: (Task, seq<StepResult>))
    requires Valid(t) && |foci| == |ds|
    requires forall k | 0 <= k < |ds| :: ValidStepDraws(ds[k])
    ensures Valid(r.0) && |r.1| == |foci|
    decreases |foci|
  {
    if |foci| == 0 then (t, [])
    else
      var (t1, res) := Step(t, stepCount, foci[0], ds[0]);
      var (tn, rest) := Run(t1, stepCount + 1, foci[1..], ds[1..]);
      (tn, [res] + rest)
  }

  /** LEARNING shows the sprites for exactly 20 steps: from a count of n,
      the next k steps render nothing while n + k < 20, and the (20 - n)-th
      moves on to INTERVAL. */
  lemma {:induction false} LearningLasts(t: Task, stepCount: nat, foci: seq<Point>, ds: seq<StepDraws>)
    requires Valid(t) && t.phase.Learning? && |foci| == |ds|
    requires t.phase.count + |foci| <= MaxLearningCount
    requires forall k | 0 <= k < |ds| :: ValidStepDraws(ds[k])
    ensures var r := Run(t, stepCount, foci, ds);
      && (forall k | 0 <= k < |foci| :: r.1[k].needRender <==> t.phase.count + k + 1 == MaxLearningCount)
      && r.0.phase == (if t.phase.count + |foci| == MaxLearningCount then Interval(0)
                       else Learning(t.phase.count + |foci|))
    decreases |foci|
  {
    if |foci| > 0 {
      var (t1, res) := Step(t, stepCount, foci[0], ds[0]);
      if t.phase.count + 1 == MaxLearningCount {
        assert |foci| == 1;
      } else {
        assert t1.phase == Learning(t.phase.count + 1);
        LearningLasts(t1, stepCount + 1, foci[1..], ds[1..]);
        var r := Run(t, stepCount, foci, ds);
        assert r.1 == [res] + Run(t1, stepCount + 1, foci[1..], ds[1..]).1;
      }
    }
  }

  /** INTERVAL shows nothing for exactly 10 steps: from a count of n, the
      next k steps render nothing and keep the sprites while n + k < 10, and
      the (10 - n)-th enters EVALUATION. */
  lemma {:induction false} IntervalLasts(t: Task, stepCount: nat, foci: seq<Point>, ds: seq<StepDraws>)
    requires Valid(t) && t.phase.Interval? && |foci| == |ds|
    requires t.phase.count + |foci| <= MaxIntervalCount
    requires forall k | 0 <= k < |ds| :: ValidStepDraws(ds[k])
    ensures var r := Run(t, stepCount, foci, ds);
      && (forall k | 0 <= k < |foci| :: r.1[k].needRender <==> t.phase.count + k + 1 == MaxIntervalCount)
      && (t.phase.count + |foci| < MaxIntervalCount ==>
            r.0.phase == Interval(t.phase.count + |foci|) && r.0.sprites == t.sprites)
      && (t.phase.count + |foci| == MaxIntervalCount ==> r.0.phase.Evaluation?)
    decreases |foci|
  {
    if |foci| > 0 {
      var (t1, res) := Step(t, stepCount, foci[0], ds[0]);
      if t.phase.count + 1 == MaxIntervalCount {
        assert |foci| == 1;
      } else {
        assert t1.phase == Interval(t.phase.count + 1);
        IntervalLasts(t1, stepCount + 1, foci[1..], ds[1..]);
        var r := Run(t, stepCount, foci, ds);
        assert r.1 == [res] + Run(t1, stepCount + 1, foci[1..], ds[1..]).1;
      }
    }
  }
}

=== FILE: environment.dfy ===
/** The camera and the environment loop of oculoenv/environment.py: the
    action turns the camera (clamped to ±45°), the camera's forward ray is
    cut with the content panel 3 units away, and the content steps with
    that gaze point. Rendering is not modelled; an observation is reduced
    to the camera angles. */
module Environment {
  import opened Utils
  import opened BaseContent
  import Geom

  /** Distance from the eye to the content panel. */
  const PlaneDistance: real := 3.0
  const InitialAngleV: real := Deg2Rad(10.0)
  const AngleMaxV: real := Deg2Rad(45.0)
  const AngleMaxH: real := Deg2Rad(45.0)

  /** The camera: horizontal (left-right) and vertical (up-down) angles. */
  datatype Camera = Camera(h: real, v: real)

  predicate InLimits(c: Camera)
  {
    Abs(c.h) <= AngleMaxH && Abs(c.v) <= AngleMaxV
  }

  /** `Camera.reset`: straight ahead, tilted 10° vertically. */
  function ResetCamera(): (c: Camera)
    ensures c.h == 0.0 && c.v == InitialAngleV
    ensures InLimits(c)
  {
    Camera(0.0, InitialAngleV)
  }

  /** `change_angle`: add the deltas, then clamp each axis on its own. */
  function ChangeAngle(c: Camera, dh: real, dv: real): (r: Camera)
    ensures InLimits(r)
    ensures -AngleMaxH <= c.h + dh <= AngleMaxH ==> r.h == c.h + dh
    ensures c.h + dh > AngleMaxH ==> r.h == AngleMaxH
    ensures c.h + dh < -AngleMaxH ==> r.h == -AngleMaxH
    ensures -AngleMaxV <= c.v + dv <= AngleMaxV ==> r.v == c.v + dv
    ensures c.v + dv > AngleMaxV ==> r.v == AngleMaxV
    ensures c.v + dv < -AngleMaxV ==> r.v == -AngleMaxV
  {
    Camera(Clamp(c.h + dh, -AngleMaxH, AngleMaxH), Clamp(c.v + dv, -AngleMaxV, AngleMaxV))
  }

  /** A zero turn leaves a camera within its limits where it is; in
      particular a zero turn after any turn changes nothing. */
  lemma ChangeAngleAtRest(c: Camera, dh: real, dv: real)
    ensures InLimits(c) ==> ChangeAngle(c, 0.0, 0.0) == c
    ensures ChangeAngle(ChangeAngle(c, dh, dv), 0.0, 0.0) == ChangeAngle(c, dh, dv)
  {
  }

  /** `_update_mat`: the y-rotation by h times the x-rotation by v. */
  function CameraMatrix(c: Camera, trig: Geom.Trig): Geom.Matrix4
  {
    Geom.Mul(Geom.RotY(trig.sin(c.h), trig.cos(c.h)), Geom.RotX(trig.sin(c.v), trig.cos(c.v)))
  }

  /** `get_forward_vec`: the camera matrix's z axis, negated. */
  function ForwardVec(c: Camera, trig: Geom.Trig): (f: seq<real>)
    ensures |f| == 3
    ensures var axis := Geom.GetAxis(CameraMatrix(c, trig), 2);
      forall i | 0 <= i < 3 :: f[i] == -axis[i]
  {
    var axis := Geom.GetAxis(CameraMatrix(c, trig), 2);
    [-axis[0], -axis[1], -axis[2]]
  }

  /** The forward ray in terms of the angles: with sh, ch, sv, cv the sines
      and cosines, it is (-sh·cv, sv, -ch·cv). Straight ahead it is -z. */
  lemma ForwardVecSpelledOut(c: Camera, trig: Geom.Trig)
    ensures ForwardVec(c, trig)
      == [-(trig.sin(c.h) * trig.cos(c.v)), trig.sin(c.v), -(trig.cos(c.h) * trig.cos(c.v))]
  {
    var sh, ch, sv, cv := trig.sin(c.h), trig.cos(c.h), trig.sin(c.v), trig.cos(c.v);
    var m := CameraMatrix(c, trig);
    assert m[0][2] == ch * 0.0 + 0.0 * (-sv) + sh * cv + 0.0 * 0.0;
    assert m[1][2] == 0.0 * 0.0 + 1.0 * (-sv) + 0.0 * cv + 0.0 * 0.0;
    assert m[2][2] == (-sh) * 0.0 + 0.0 * (-sv) + ch * cv + 0.0 * 0.0;
    var f := ForwardVec(c, trig);
    var g := [-(trig.sin(c.h) * trig.cos(c.v)), trig.sin(c.v), -(trig.cos(c.h) * trig.cos(c.v))];
    assert f[0] == g[0] && f[1] == g[1] && f[2] == g[2];
  }

  /** `_calc_local_focus_pos`: where the forward ray meets the panel at
      distance 3. The ray must point at the panel's plane. */
  function LocalFocus(f: seq<real>): (p: Point)
    requires |f| == 3 && f[2] != 0.0
    ensures var tz := -f[2];
      p.x * tz == f[0] * PlaneDistance && p.y * tz == f[1] * PlaneDistance
    ensures -f[2] > 0.0 ==> (p.x > 0.0 <==> f[0] > 0.0) && (p.y > 0.0 <==> f[1] > 0.0)
    ensures -f[2] > 0.0 ==> (p.x < 0.0 <==> f[0] < 0.0) && (p.y < 0.0 <==> f[1] < 0.0)
  {
    var tz := -f[2];
    var k := PlaneDistance / tz;
    var p := Point(f[0] * k, f[1] * k);
    assert k * tz == PlaneDistance;
    assert tz > 0.0 ==> k > 0.0;
    p
  }

  /** The gaze point as a function of the angles: with the camera facing the
      panel (ch·cv ≠ 0), it is (-3·sh/ch, 3·sv/(ch·cv)). */
  lemma FocusOfAngles(c: Camera, trig: Geom.Trig)
    requires trig.cos(c.h) * trig.cos(c.v) != 0.0
    ensures var sh, ch, sv, cv := trig.sin(c.h), trig.cos(c.h), trig.sin(c.v), trig.cos(c.v);
      && ForwardVec(c, trig)[2] != 0.0
      && LocalFocus(ForwardVec(c, trig)) == Point(-(sh * cv) * (PlaneDistance / (ch * cv)), sv * (PlaneDistance / (ch * cv)))
  {
    ForwardVecSpelledOut(c, trig);
  }

  /** The environment: its camera and the content it shows. */
  datatype Env<S> = Env(camera: Camera, content: Content<S>)

  /** What an observation reports besides the rendered screen. */
  datatype Observation = Observation(angleH: real, angleV: real)

  function Observe<S>(e: Env<S>): (o: Observation)
    ensures o.angleH == e.camera.h && o.angleV == e.camera.v
  {
    Observation(e.camera.h, e.camera.v)
  }

  /** `Environment.reset`: the content first, then the camera. */
  function EnvReset<S>(e: Env<S>, reset: S -> S): (r: (Env<S>, Observation))
    ensures r.0.content == BaseContent.Reset(e.content, reset)
    ensures r.0.content.stepCount == 0
    ensures r.0.camera == ResetCamera() && InLimits(r.0.camera)
    ensures r.1 == Observation(0.0, InitialAngleV)
  {
    var e' := Env(ResetCamera(), BaseContent.Reset(e.content, reset));
    (e', Observe(e'))
  }

  /** The constructor: a fresh camera and the content, then `reset`. */
  function EnvInit<S>(content: Content<S>, reset: S -> S): (r: (Env<S>, Observation))
    ensures r.0.content.task == reset(content.task) && r.0.content.stepCount == 0
    ensures r.0.camera == ResetCamera()
  {
    EnvReset(Env(ResetCamera(), content), reset)
  }

  /** What `Environment.step` returns, without the screen. */
  datatype EnvReply = EnvReply(obs: Observation, reward: int, done: bool, info: Info)

  /** `Environment.step`: turn the camera, then take the gaze point from the
      turned camera, then step the content with it; the content's reward,
      done flag and info pass through unchanged. */
  function EnvStep<S>(e: Env<S>, dh: real, dv: real, trig: Geom.Trig, inner: StepFn<S>): (r: (Env<S>, EnvReply))
    requires ForwardVec(ChangeAngle(e.camera, dh, dv), trig)[2] != 0.0
    ensures r.0.camera == ChangeAngle(e.camera, dh, dv) && InLimits(r.0.camera)
    ensures r.0.content.stepCount == e.content.stepCount + 1
    ensures var focus := LocalFocus(ForwardVec(r.0.camera, trig));
      var res := inner(e.content.task, e.content.stepCount, focus).1;
      && r.0.content.task == inner(e.content.task, e.content.stepCount, focus).0
      && r.1.reward == res.reward && r.1.done == res.done && r.1.info == res.info
    ensures r.1.obs == Observation(r.0.camera.h, r.0.camera.v)
  {
    var camera := ChangeAngle(e.camera, dh, dv);
    var focus := LocalFocus(ForwardVec(camera, trig));
    var (content, reply) := BaseContent.Step(e.content, focus, inner);
    var e' := Env(camera, content);
    (e', EnvReply(Observe(e'), reply.reward, reply.done, reply.info))
  }
}

=== FILE: geom.dfy ===
/** The 4x4 transform type of oculoenv/geom.py (`Matrix4`), row-major like the
    numpy array it wraps. Sines and cosines are parameters: a rotation is built
    from the pair (s, c) the caller computed for its angle. */
module Geom {

  predicate IsMatrix4(m: seq<seq<real>>)
  {
    |m| == 4 && forall i | 0 <= i < 4 :: |m[i]| == 4
  }

  type Matrix4 = m: seq<seq<real>> | IsMatrix4(m)
    witness [[1.0, 0.0, 0.0, 0.0], [0.0, 1.0, 0.0, 0.0], [0.0, 0.0, 1.0, 0.0], [0.0, 0.0, 0.0, 1.0]]

  /** The two trigonometric functions, supplied by the caller. */
  datatype Trig = Trig(sin: real -> real, cos: real -> real)

  /** Inner product, summed from the front. */
  function Dot(a: seq<real>, b: seq<real>): real
    requires |a| == |b|
    decreases |a|
  {
    if |a| == 0 then 0.0 else a[0] * b[0] + Dot(a[1..], b[1..])
  }

  lemma Dot4(a: seq<real>, b: seq<real>)
    requires |a| == 4 && |b| == 4
    ensures Dot(a, b) == a[0] * b[0] + a[1] * b[1] + a[2] * b[2] + a[3] * b[3]
  {
    assert Dot(a[3..], b[3..]) == a[3] * b[3] by {
      assert a[3..][1..] == [] && b[3..][1..] == [];
    }
    assert Dot(a[2..], b[2..]) == a[2] * b[2] + Dot(a[3..], b[3..]) by {
      assert a[2..][1..] == a[3..] && b[2..][1..] == b[3..];
    }
    assert Dot(a[1..], b[1..]) == a[1] * b[1] + Dot(a[2..], b[2..]) by {
      assert a[1..][1..] == a[2..] && b[1..][1..] == b[2..];
    }
  }

  function Column(m: Matrix4, j: nat): (col: seq<real>)
    requires j < 4
    ensures |col| == 4 && forall i | 0 <= i < 4 :: col[i] == m[i][j]
  {
    [m[0][j], m[1][j], m[2][j], m[3][j]]
  }

  /** Two matrices with the same entries are equal. */
  lemma Extensional(a: Matrix4, b: Matrix4)
    requires forall i, j | 0 <= i < 4 && 0 <= j < 4 :: a[i][j] == b[i][j]
    ensures a == b
  {
    forall i | 0 <= i < 4
      ensures a[i] == b[i]
    {
    }
  }

  /** `Matrix4()`: numpy's identity. */
  function Identity(): Matrix4
  {
    [[1.0, 0.0, 0.0, 0.0],
     [0.0, 1.0, 0.0, 0.0],
     [0.0, 0.0, 1.0, 0.0],
     [0.0, 0.0, 0.0, 1.0]]
  }

  /** `set_trans(v)`: writes `v[i]` into the last column for each index of `v`. */
  function SetTrans(m: Matrix4, v: seq<real>): (r: Matrix4)
    requires |v| <= 4
    ensures forall j | 0 <= j < 3 :: Column(r, j) == Column(m, j)
    ensures forall i | 0 <= i < |v| :: r[i][3] == v[i]
    ensures forall i | |v| <= i < 4 :: r[i][3] == m[i][3]
  {
    seq(4, i requires 0 <= i < 4 =>
      seq(4, j requires 0 <= j < 4 => if j == 3 && i < |v| then v[i] else m[i][j]))
  }

  /** `transform(v)`: a 3-vector is extended with 1.0 before the product. */
  function Transform(m: Matrix4, v: seq<real>): (r: seq<real>)
    requires |v| == 3 || |v| == 4
    ensures |r| == 4
    ensures forall i | 0 <= i < 4 ::
      r[i] == m[i][0] * v[0] + m[i][1] * v[1] + m[i][2] * v[2]
              + m[i][3] * (if |v| == 3 then 1.0 else v[3])
  {
    var w := if |v| == 3 then v + [1.0] else v;
    var r := seq(4, i requires 0 <= i < 4 => Dot(m[i], w));
    forall i | 0 <= i < 4
      ensures r[i] == m[i][0] * w[0] + m[i][1] * w[1] + m[i][2] * w[2] + m[i][3] * w[3]
    {
      Dot4(m[i], w);
    }
    r
  }

  function RotX(s: real, c: real): Matrix4
  {
    [[1.0, 0.0, 0.0, 0.0],
     [0.0,   c,  -s, 0.0],
     [0.0,   s,   c, 0.0],
     [0.0, 0.0, 0.0, 1.0]]
  }

  function RotY(s: real, c: real): Matrix4
  {
    [[  c, 0.0,   s, 0.0],
     [0.0, 1.0, 0.0, 0.0],
     [ -s, 0.0,   c, 0.0],
     [0.0, 0.0, 0.0, 1.0]]
  }

  function RotZ(s: real, c: real): Matrix4
  {
    [[  c,  -s, 0.0, 0.0],
     [  s,   c, 0.0, 0.0],
     [0.0, 0.0, 1.0, 0.0],
     [0.0, 0.0, 0.0, 1.0]]
  }

  /** `get_axis(k)`: the first three entries of column `k`. */
  function GetAxis(m: Matrix4, k: nat): (axis: seq<real>)
    requires k < 4
    ensures axis == Column(m, k)[..3]
  {
    [m[0][k], m[1][k], m[2][k]]
  }

  /** `mul(other)`: `self.m.dot(other.m)`. */
  function Mul(a: Matrix4, b: Matrix4): (r: Matrix4)
    ensures forall i, j | 0 <= i < 4 && 0 <= j < 4 ::
      r[i][j] == a[i][0] * b[0][j] + a[i][1] * b[1][j] + a[i][2] * b[2][j] + a[i][3] * b[3][j]
  {
    var r: Matrix4 := seq(4, i requires 0 <= i < 4 =>
      seq(4, j requires 0 <= j < 4 => Dot(a[i], Column(b, j))));
    forall i, j | 0 <= i < 4 && 0 <= j < 4
      ensures r[i][j] == a[i][0] * b[0][j] + a[i][1] * b[1][j] + a[i][2] * b[2][j] + a[i][3] * b[3][j]
    {
      Dot4(a[i], Column(b, j));
    }
    r
  }

  /** `get_raw_gl()`: the column-major flattening handed to OpenGL. */
  function RawGl(m: Matrix4): (raw: seq<real>)
    ensures |raw| == 16
    ensures forall i, j | 0 <= i < 4 && 0 <= j < 4 :: raw[4 * j + i] == m[i][j]
  {
    seq(16, n requires 0 <= n < 16 => m[n % 4][n / 4])
  }

  // ---------------------------------------------------------------------
  // Properties
  // ---------------------------------------------------------------------

  /** The identity is a left and a right unit of `Mul`. */
  lemma MulIdentity(a: Matrix4)
    ensures Mul(Identity(), a) == a
    ensures Mul(a, Identity()) == a
  {
    var id := Identity();
    var l, r := Mul(id, a), Mul(a, id);
    forall i, j | 0 <= i < 4 && 0 <= j < 4
      ensures l[i][j] == a[i][j] && r[i][j] == a[i][j]
    {
      LeftUnitEntry(a, i, j);
      RightUnitEntry(a, i, j);
    }
    Extensional(l, a);
    Extensional(r, a);
  }

  /** One entry of the product with the identity on the right. */
  lemma RightUnitEntry(a: Matrix4, i: nat, j: nat)
    requires i < 4 && j < 4
    ensures Mul(a, Identity())[i][j] == a[i][j]
  {
    var m := Mul(a, Identity());
    if j == 0 {
      assert m[i][0] == a[i][0] * 1.0 + a[i][1] * 0.0 + a[i][2] * 0.0 + a[i][3] * 0.0;
    } else if j == 1 {
      assert m[i][1] == a[i][0] * 0.0 + a[i][1] * 1.0 + a[i][2] * 0.0 + a[i][3] * 0.0;
    } else if j == 2 {
      assert m[i][2] == a[i][0] * 0.0 + a[i][1] * 0.0 + a[i][2] * 1.0 + a[i][3] * 0.0;
    } else {
      assert m[i][3] == a[i][0] * 0.0 + a[i][1] * 0.0 + a[i][2] * 0.0 + a[i][3] * 1.0;
    }
  }

  /** One entry of the product with the identity on the left. */
  lemma LeftUnitEntry(a: Matrix4, i: nat, j: nat)
    requires i < 4 && j < 4
    ensures Mul(Identity(), a)[i][j] == a[i][j]
  {
    var m := Mul(Identity(), a);
    if i == 0 {
      assert m[0][j] == 1.0 * a[0][j] + 0.0 * a[1][j] + 0.0 * a[2][j] + 0.0 * a[3][j];
    } else if i == 1 {
      assert m[1][j] == 0.0 * a[0][j] + 1.0 * a[1][j] + 0.0 * a[2][j] + 0.0 * a[3][j];
    } else if i == 2 {
      assert m[2][j] == 0.0 * a[0][j] + 0.0 * a[1][j] + 1.0 * a[2][j] + 0.0 * a[3][j];
    } else {
      assert m[3][j] == 0.0 * a[0][j] + 0.0 * a[1][j] + 0.0 * a[2][j] + 1.0 * a[3][j];
    }
  }

  /** Composing two x-rotations gives the x-rotation whose (s, c) follow the
      angle-addition formulas: `rot_x(a) * rot_x(b) == rot_x(a + b)`. */
  lemma RotXComposition(s1: real, c1: real, s2: real, c2: real)
    ensures Mul(RotX(s1, c1), RotX(s2, c2)) == RotX(s1 * c2 + c1 * s2, c1 * c2 - s1 * s2)
  {
    var p := Mul(RotX(s1, c1), RotX(s2, c2));
    var q := RotX(s1 * c2 + c1 * s2, c1 * c2 - s1 * s2);
    forall i, j | 0 <= i < 4 && 0 <= j < 4
      ensures p[i][j] == q[i][j]
    {
      RotXEntry(s1, c1, s2, c2, i, j);
    }
    Extensional(p, q);
  }

  /** One entry of the product of two x-rotations. */
  lemma RotXEntry(s1: real, c1: real, s2: real, c2: real, i: nat, j: nat)
    requires i < 4 && j < 4
    ensures Mul(RotX(s1, c1), RotX(s2, c2))[i][j] == RotX(s1 * c2 + c1 * s2, c1 * c2 - s1 * s2)[i][j]
  {
    var p := Mul(RotX(s1, c1), RotX(s2, c2));
    if i == 1 && j == 1 {
      assert p[1][1] == c1 * c2 + (-s1) * s2;
    } else if i == 1 && j == 2 {
      assert p[1][2] == c1 * (-s2) + (-s1) * c2;
    } else if i == 2 && j == 1 {
      assert p[2][1] == s1 * c2 + c1 * s2;
    } else if i == 2 && j == 2 {
      assert p[2][2] == s1 * (-s2) + c1 * c2;
    }
  }

  /** The rotations turn the unit axes as the tests expect for angle a with
      s = sin a, c = cos a: z goes to (0, -s, c), x to (c, 0, -s), y to (-s, c, 0). */
  lemma RotationsTurnAxes(s: real, c: real)
    ensures Transform(RotX(s, c), [0.0, 0.0, 1.0]) == [0.0, -s, c, 1.0]
    ensures Transform(RotY(s, c), [1.0, 0.0, 0.0]) == [c, 0.0, -s, 1.0]
    ensures Transform(RotZ(s, c), [0.0, 1.0, 0.0]) == [-s, c, 0.0, 1.0]
  {
  }

  /** The OpenGL array spelled out entry by entry. */
  lemma RawGlSpelledOut(m: Matrix4)
    ensures RawGl(m) == [m[0][0], m[1][0], m[2][0], m[3][0], m[0][1], m[1][1], m[2][1], m[3][1],
                         m[0][2], m[1][2], m[2][2], m[3][2], m[0][3], m[1][3], m[2][3], m[3][3]]
  {
  }

  /** A translation written into the identity lands at indices 12-14 of the
      OpenGL array. */
  lemma RawGlOfTranslation(x: real, y: real, z: real)
    ensures RawGl(SetTrans(Identity(), [x, y, z]))
         == [1.0, 0.0, 0.0, 0.0, 0.0, 1.0, 0.0, 0.0, 0.0, 0.0, 1.0, 0.0, x, y, z, 1.0]
  {
    var m := SetTrans(Identity(), [x, y, z]);
    var t: Matrix4 := [[1.0, 0.0, 0.0, x], [0.0, 1.0, 0.0, y], [0.0, 0.0, 1.0, z], [0.0, 0.0, 0.0, 1.0]];
    forall i, j | 0 <= i < 4 && 0 <= j < 4
      ensures m[i][j] == t[i][j]
    {
      if j < 3 {
        assert m[i][j] == Column(m, j)[i] == Column(Identity(), j)[i];
      }
    }
    Extensional(m, t);
    RawGlSpelledOut(t);
  }
}

=== FILE: multiple_object_tracking.dfy ===
/** The multiple-object-tracking task of
    oculoenv/contents/multiple_object_tracking_content.py: memorise one ball,
    watch all balls move, then answer whether the highlighted ball is the
    memorised one. */
module MultipleObjectTracking {
  import opened Utils
  import opened BaseContent
  import Geom

  const BallWidth: real := 0.1
  const MoveRegionRate: real := 0.7
  const MoveSpeed: real := 0.05
  const WatchDogCount: nat := 200
  const MemoryStepCount: nat := 30
  const MoveStepCount: nat := 60
  const DifficultyRange: nat := 6

  /** Two balls closer than this (squared) conflict: the distance of centres
      must be at least two radii. */
  const MinDistSq: real := (BallWidth * 2.0) * (BallWidth * 2.0)

  /** A ball: centre, heading (radians), and its two roles. */
  datatype Ball = Ball(x: real, y: real, direction: real, isMemory: bool, isResponse: bool)

  function DistSq(x0: real, y0: real, x1: real, y1: real): real
  {
    var dx, dy := x0 - x1, y0 - y1;
    dx * dx + dy * dy
  }

  /** `_is_out_of_wall` for a point. */
  predicate OutOfWall(x: real, y: real)
  {
    x < -MoveRegionRate || x > MoveRegionRate || y < -MoveRegionRate || y > MoveRegionRate
  }

  predicate InWall(balls: seq<Ball>)
  {
    forall k | 0 <= k < |balls| :: !OutOfWall(balls[k].x, balls[k].y)
  }

  /** Every two distinct balls are at least two radii apart. */
  predicate Separated(balls: seq<Ball>)
  {
    forall j, k | 0 <= j < |balls| && 0 <= k < |balls| && j != k ::
      DistSq(balls[j].x, balls[j].y, balls[k].x, balls[k].y) >= MinDistSq
  }

  /** `randomize_pos`: a point of [-0.7, 0.7]², from two unit draws. */
  function RandomizePos(d: Draw2): (p: Point)
    requires IsUnit2(d)
    ensures !OutOfWall(p.x, p.y)
  {
    Point((2.0 * d.u - 1.0) * MoveRegionRate, (2.0 * d.v - 1.0) * MoveRegionRate)
  }

  /** `randomize_direction`: an angle in [-pi, pi]. */
  function RandomizeDirection(u: real): (a: real)
    requires IsUnit(u)
    ensures -Pi <= a <= Pi
  {
    var r := Uniform(-1.0, 1.0, u);
    MulNonNeg(1.0 - r, Pi);
    MulNonNeg(1.0 + r, Pi);
    r * Pi
  }

  /** `_move_trial`: one step of length 0.05 along the heading. */
  function Candidate(b: Ball, trig: Geom.Trig): Point
  {
    Point(b.x + trig.cos(b.direction) * MoveSpeed, b.y + trig.sin(b.direction) * MoveSpeed)
  }

  /** The loop of `_check_illegal` over the balls from `j` on. */
  function ConflictFrom(c: Point, i: nat, balls: seq<Ball>, j: nat): (conflict: bool)
    requires j <= |balls|
    ensures conflict <==> exists k | j <= k < |balls| ::
      k != i && DistSq(c.x, c.y, balls[k].x, balls[k].y) < MinDistSq
    decreases |balls| - j
  {
    if j == |balls| then false
    else
      var here := j != i && DistSq(c.x, c.y, balls[j].x, balls[j].y) < MinDistSq;
      var later := ConflictFrom(c, i, balls, j + 1);
      here || later
  }

  /** `_check_illegal`: the candidate of ball `i` leaves the wall or comes
      too close to another ball. */
  function CheckIllegal(c: Point, i: nat, balls: seq<Ball>): (illegal: bool)
    ensures illegal <==>
      || OutOfWall(c.x, c.y)
      || exists k | 0 <= k < |balls| :: k != i && DistSq(c.x, c.y, balls[k].x, balls[k].y) < MinDistSq
  {
    OutOfWall(c.x, c.y) || ConflictFrom(c, i, balls, 0)
  }

  /** The attempts of `move` from watchdog count `wd` on: a legal candidate
      is taken; an illegal one turns the ball by a fresh heading and retries,
      until the last attempt, after which the ball stays where it is (with
      its last heading). */
  function MoveFrom(b: Ball, i: nat, balls: seq<Ball>, wd: nat, redirects: seq<real>, trig: Geom.Trig): (r: Ball)
    requires wd < WatchDogCount && |redirects| >= WatchDogCount
    requires forall k | 0 <= k < |redirects| :: IsUnit(redirects[k])
    ensures r.isMemory == b.isMemory && r.isResponse == b.isResponse
    ensures (r.x == b.x && r.y == b.y) || !CheckIllegal(Point(r.x, r.y), i, balls)
    decreases WatchDogCount - wd
  {
    var c := Candidate(b, trig);
    if !CheckIllegal(c, i, balls) then b.(x := c.x, y := c.y)
    else if wd >= WatchDogCount - 1 then b
    else MoveFrom(b.(direction := RandomizeDirection(redirects[wd])), i, balls, wd + 1, redirects, trig)
  }

  /** `move(i, balls)`: at most 200 attempts. */
  function Move(b: Ball, i: nat, balls: seq<Ball>, redirects: seq<real>, trig: Geom.Trig): (r: Ball)
    requires |redirects| >= WatchDogCount
    requires forall k | 0 <= k < |redirects| :: IsUnit(redirects[k])
    ensures r.isMemory == b.isMemory && r.isResponse == b.isResponse
    ensures (r.x == b.x && r.y == b.y) || !CheckIllegal(Point(r.x, r.y), i, balls)
  {
    MoveFrom(b, i, balls, 0, redirects, trig)
  }

  /** The redirect draws of one `_move_ball_sprites`, one list per ball. */
  predicate ValidMoveDraws(draws: seq<seq<real>>, n: nat)
  {
    && |draws| >= n
    && forall k | 0 <= k < |draws| ::
         |draws[k]| >= WatchDogCount && forall m | 0 <= m < |draws[k]| :: IsUnit(draws[k][m])
  }

  /** Moving ball `i` within the others keeps every ball inside the wall and
      every two balls apart. */
  lemma MoveKeepsApart(balls: seq<Ball>, i: nat, redirects: seq<real>, trig: Geom.Trig)
    requires i < |balls| && InWall(balls) && Separated(balls)
    requires |redirects| >= WatchDogCount && forall k | 0 <= k < |redirects| :: IsUnit(redirects[k])
    ensures var moved := balls[i := Move(balls[i], i, balls, redirects, trig)];
      InWall(moved) && Separated(moved)
  {
    var b := Move(balls[i], i, balls, redirects, trig);
    var moved := balls[i := b];
    var stays := b.x == balls[i].x && b.y == balls[i].y;
    assert !stays ==> !CheckIllegal(Point(b.x, b.y), i, balls);
    forall j, k | 0 <= j < |moved| && 0 <= k < |moved| && j != k
      ensures DistSq(moved[j].x, moved[j].y, moved[k].x, moved[k].y) >= MinDistSq
    {
      if j == i {
        assert DistSq(b.x, b.y, balls[k].x, balls[k].y) >= MinDistSq;
      } else if k == i {
        assert DistSq(b.x, b.y, balls[j].x, balls[j].y) >= MinDistSq;
        DistSqSymmetric(balls[j].x, balls[j].y, b.x, b.y);
      }
    }
  }

  lemma DistSqSymmetric(x0: real, y0: real, x1: real, y1: real)
    ensures DistSq(x0, y0, x1, y1) == DistSq(x1, y1, x0, y0)
  {
    assert (x0 - x1) * (x0 - x1) == (x1 - x0) * (x1 - x0);
    assert (y0 - y1) * (y0 - y1) == (y1 - y0) * (y1 - y0);
  }

  /** `_move_ball_sprites` from ball `i` on: each ball moves in turn, seeing
      the balls before it at their new places and those after at their old. */
  function MoveAllFrom(balls: seq<Ball>, i: nat, draws: seq<seq<real>>, trig: Geom.Trig): (r: seq<Ball>)
    requires i <= |balls| && ValidMoveDraws(draws, |balls|)
    ensures |r| == |balls|
    ensures forall k | 0 <= k < |r| :: r[k].isMemory == balls[k].isMemory && r[k].isResponse == balls[k].isResponse
    decreases |balls| - i
  {
    if i == |balls| then balls
    else MoveAllFrom(balls[i := Move(balls[i], i, balls, draws[i], trig)], i + 1, draws, trig)
  }

  function MoveAll(balls: seq<Ball>, draws: seq<seq<real>>, trig: Geom.Trig): (r: seq<Ball>)
    requires ValidMoveDraws(draws, |balls|)
    ensures |r| == |balls|
    ensures forall k | 0 <= k < |r| :: r[k].isMemory == balls[k].isMemory && r[k].isResponse == balls[k].isResponse
  {
    MoveAllFrom(balls, 0, draws, trig)
  }

  /** A pass of moves keeps the balls inside the wall and apart. */
  lemma {:induction false} MoveAllFromKeepsApart(balls: seq<Ball>, i: nat, draws: seq<seq<real>>, trig: Geom.Trig)
    requires i <= |balls| && ValidMoveDraws(draws, |balls|)
    requires InWall(balls)
    ensures InWall(MoveAllFrom(balls, i, draws, trig))
    ensures Separated(balls) ==> Separated(MoveAllFrom(balls, i, draws, trig))
    decreases |balls| - i
  {
    if i < |balls| {
      var b := Move(balls[i], i, balls, draws[i], trig);
      var moved := balls[i := b];
      assert InWall(moved) by {
        forall k | 0 <= k < |moved|
          ensures !OutOfWall(moved[k].x, moved[k].y)
        {
        }
      }
      if Separated(balls) {
        MoveKeepsApart(balls, i, draws[i], trig);
      }
      MoveAllFromKeepsApart(moved, i + 1, draws, trig);
    }
  }

  lemma MoveAllKeepsApart(balls: seq<Ball>, draws: seq<seq<real>>, trig: Geom.Trig)
    requires ValidMoveDraws(draws, |balls|) && InWall(balls)
    ensures InWall(MoveAll(balls, draws, trig))
    ensures Separated(balls) ==> Separated(MoveAll(balls, draws, trig))
  {
    MoveAllFromKeepsApart(balls, 0, draws, trig);
  }

  // ---------------------------------------------------------------------
  // Initial placement
  // ---------------------------------------------------------------------

  /** `is_conflict_with(others)`. */
  function ConflictWith(p: Point, others: seq<Ball>): (conflict: bool)
    ensures conflict <==> exists k | 0 <= k < |others| :: DistSq(p.x, p.y, others[k].x, others[k].y) < MinDistSq
    decreases |others|
  {
    if |others| == 0 then false
    else
      var rest := ConflictWith(p, others[1..]);
      assert forall k | 1 <= k < |others| :: others[k] == others[1..][k - 1];
      DistSq(p.x, p.y, others[0].x, others[0].y) < MinDistSq || rest
  }

  /** The watchdog loop of `_prepare_ball_sprites` from count `wd` on: a
      conflicting position is re-drawn, at most 200 times. The flag tells
      whether the loop left through `break`; only then is the position
      known to be clear, since the last re-draw is never checked. */
  function PlaceFrom(p: Point, others: seq<Ball>, wd: nat, retries: seq<Draw2>): (r: (Point, bool))
    requires wd < WatchDogCount && |retries| >= WatchDogCount
    requires forall k | 0 <= k < |retries| :: IsUnit2(retries[k])
    requires !OutOfWall(p.x, p.y)
    ensures !OutOfWall(r.0.x, r.0.y)
    ensures r.1 ==> !ConflictWith(r.0, others)
    ensures !ConflictWith(p, others) ==> r == (p, true)
    decreases WatchDogCount - wd
  {
    if !ConflictWith(p, others) then (p, true)
    else
      var q := RandomizePos(retries[wd]);
      if wd == WatchDogCount - 1 then (q, false)
      else PlaceFrom(q, others, wd + 1, retries)
  }

  /** The draws for one ball: its first position and heading, and the
      re-draws of its watchdog loop. */
  datatype BallDraw = BallDraw(pos: Draw2, direction: real, retries: seq<Draw2>)

  predicate ValidBallDraw(d: BallDraw)
  {
    && IsUnit2(d.pos) && IsUnit(d.direction)
    && |d.retries| >= WatchDogCount && forall k | 0 <= k < |d.retries| :: IsUnit2(d.retries[k])
  }

  /** One pass of the placement loop: ball `b` gets a position and a
      heading; every ball but the first is checked against `group`, the
      balls placed before it. */
  function PlaceOne(b: Ball, group: seq<Ball>, d: BallDraw): (r: (Ball, bool))
    requires ValidBallDraw(d)
    ensures !OutOfWall(r.0.x, r.0.y)
    ensures r.0.isMemory == b.isMemory && r.0.isResponse == b.isResponse
    ensures r.1 ==> !ConflictWith(Point(r.0.x, r.0.y), group)
    ensures |group| == 0 ==> r.1
  {
    var first := RandomizePos(d.pos);
    var (p, ok) := if |group| > 0 then PlaceFrom(first, group, 0, d.retries) else (first, true);
    (b.(x := p.x, y := p.y, direction := RandomizeDirection(d.direction)), ok)
  }

  /** The roles of a ball. */
  predicate SameRoles(a: Ball, b: Ball)
  {
    a.isMemory == b.isMemory && a.isResponse == b.isResponse
  }

  /** Places the balls of `rest` one after another, each against `group`,
      the balls placed before it. The flag is true iff every placement so
      far left its loop through `break`. */
  function PlaceRest(group: seq<Ball>, rest: seq<Ball>, draws: seq<BallDraw>, clean: bool): (r: (seq<Ball>, bool))
    requires |group| + |rest| <= |draws|
    requires forall k | 0 <= k < |draws| :: ValidBallDraw(draws[k])
    requires InWall(group) && (clean ==> Separated(group))
    ensures |r.0| == |group| + |rest| && InWall(r.0)
    ensures r.1 ==> Separated(r.0)
    decreases |rest|
  {
    if |rest| == 0 then (group, clean)
    else
      assert ValidBallDraw(draws[|group|]);
      var (b, ok) := PlaceOne(rest[0], group, draws[|group|]);
      var group' := group + [b];
      ExtendSeparated(group, b, clean && ok);
      PlaceRest(group', rest[1..], draws, clean && ok)
  }

  /** Placement moves balls and turns them, but never changes a role. */
  lemma {:induction false} PlaceRestKeepsRoles(group: seq<Ball>, rest: seq<Ball>, draws: seq<BallDraw>, clean: bool)
    requires |group| + |rest| <= |draws|
    requires forall k | 0 <= k < |draws| :: ValidBallDraw(draws[k])
    requires InWall(group) && (clean ==> Separated(group))
    ensures var r := PlaceRest(group, rest, draws, clean);
      forall k | 0 <= k < |r.0| :: SameRoles(r.0[k], (group + rest)[k])
    decreases |rest|
  {
    if |rest| > 0 {
      assert ValidBallDraw(draws[|group|]);
      var placed := PlaceOne(rest[0], group, draws[|group|]);
      var b, ok := placed.0, placed.1;
      ExtendSeparated(group, b, clean && ok);
      PlaceRestKeepsRoles(group + [b], rest[1..], draws, clean && ok);
      var r := PlaceRest(group, rest, draws, clean);
      assert r == PlaceRest(group + [b], rest[1..], draws, clean && ok);
      var before, after := group + rest, group + [b] + rest[1..];
      forall k | 0 <= k < |r.0|
        ensures SameRoles(r.0[k], before[k])
      {
        if k < |group| {
          assert after[k] == group[k] == before[k];
        } else if k == |group| {
          assert after[k] == b && before[k] == rest[0];
        } else {
          assert after[k] == rest[k - |group|] == before[k];
        }
      }
    }
  }

  /** A ball clear of a separated group keeps the group separated (when
      `clear` says both hold). */
  lemma ExtendSeparated(group: seq<Ball>, b: Ball, clear: bool)
    requires clear ==> Separated(group) && !ConflictWith(Point(b.x, b.y), group)
    ensures clear ==> Separated(group + [b])
  {
    if !clear { return; }
    var g := group + [b];
    forall j, k | 0 <= j < |g| && 0 <= k < |g| && j != k
      ensures DistSq(g[j].x, g[j].y, g[k].x, g[k].y) >= MinDistSq
    {
      if j == |group| {
        assert g[k] == group[k];
      } else if k == |group| {
        assert g[j] == group[j];
        assert DistSq(g[j].x, g[j].y, b.x, b.y) == DistSq(b.x, b.y, g[j].x, g[j].y);
      } else {
        assert g[j] == group[j] && g[k] == group[k];
      }
    }
  }

  /** The draws of one `_prepare_ball_sprites`. */
  datatype Preparation = Preparation(count: real, dice: real, response: real, balls: seq<BallDraw>)

  predicate ValidPreparation(d: Preparation)
  {
    && IsUnit(d.count) && IsUnit(d.dice) && IsUnit(d.response)
    && |d.balls| >= 2 + DifficultyRange
    && forall k | 0 <= k < |d.balls| :: ValidBallDraw(d.balls[k])
  }

  /** The roles are as dealt: ball 0 alone is memorised, exactly one ball
      is highlighted for the answer. */
  predicate ValidRoles(balls: seq<Ball>, responseIndex: nat)
  {
    && 2 <= |balls| < 2 + DifficultyRange
    && responseIndex < |balls|
    && (forall k | 0 <= k < |balls| :: balls[k].isMemory <==> k == 0)
    && (forall k | 0 <= k < |balls| :: balls[k].isResponse <==> k == responseIndex)
  }

  /** A dealt set of balls, the highlighted index, and whether every ball
      was placed clear of the ones before it. */
  datatype Deal = Deal(balls: seq<Ball>, responseIndex: nat, placedApart: bool)

  /** `_prepare_ball_sprites`: the response target is ball 0 iff the dice
      says the answer is YES. */
  function PrepareBalls(difficulty: Option<nat>, d: Preparation): (r: Deal)
    requires difficulty.Some? ==> difficulty.value < DifficultyRange
    requires ValidPreparation(d)
    ensures |r.balls| == DealCount(difficulty, DifficultyRange, d.count)
    ensures ValidRoles(r.balls, r.responseIndex) && InWall(r.balls)
    ensures r.placedApart ==> Separated(r.balls)
    ensures r.responseIndex == 0 <==> RandInt(0, 2, d.dice) == 1
  {
    var n := DealCount(difficulty, DifficultyRange, d.count);
    var correct := RandInt(0, 2, d.dice) == 1;
    var responseIndex := if correct then 0 else RandInt(1, n, d.response);
    var blank := seq(n, k => Ball(0.0, 0.0, 0.0, k == 0, k == responseIndex));
    var (balls, apart) := PlaceRest([], blank, d.balls, true);
    PlaceRestKeepsRoles([], blank, d.balls, true);
    assert [] + blank == blank;
    BlankRolesKept(balls, blank, responseIndex);
    Deal(balls, responseIndex, apart)
  }

  /** Balls that took their roles from the blank deal have the dealt roles. */
  lemma BlankRolesKept(balls: seq<Ball>, blank: seq<Ball>, responseIndex: nat)
    requires 2 <= |blank| < 2 + DifficultyRange && responseIndex < |blank|
    requires blank == seq(|blank|, k => Ball(0.0, 0.0, 0.0, k == 0, k == responseIndex))
    requires |balls| == |blank| && forall k | 0 <= k < |balls| :: SameRoles(balls[k], blank[k])
    ensures ValidRoles(balls, responseIndex)
  {
  }

  /** `_is_target_correct`: the highlighted ball is the memorised one. */
  function TargetCorrect(balls: seq<Ball>, responseIndex: nat): (correct: bool)
    requires ValidRoles(balls, responseIndex)
    ensures correct <==> responseIndex == 0
  {
    balls[0].isMemory && balls[0].isResponse
  }

  // ---------------------------------------------------------------------
  // The task
  // ---------------------------------------------------------------------

  datatype Phase = Start | Memory | Moving | Response

  datatype Task = Task(difficulty: Option<nat>, phase: Phase, phaseCount: nat, deal: Option<Deal>)

  predicate Valid(t: Task)
  {
    && (t.difficulty.Some? ==> t.difficulty.value < DifficultyRange)
    && (t.phase != Start ==> t.deal.Some?)
    && (t.deal.Some? ==> ValidRoles(t.deal.value.balls, t.deal.value.responseIndex) && InWall(t.deal.value.balls))
    && (t.phase == Memory ==> t.phaseCount < MemoryStepCount)
    && (t.phase == Moving ==> t.phaseCount < MoveStepCount)
  }

  /** The constructor: START with no balls yet; a difficulty of 6 or more
      then fails the assertion. */
  function Init(difficulty: Option<nat>): (t: Option<Task>)
    ensures t.Some? <==> (difficulty.None? || difficulty.value < DifficultyRange)
    ensures t.Some? ==> Valid(t.value) && t.value.phase == Start && t.value.phaseCount == 0
  {
    if difficulty.Some? && difficulty.value >= DifficultyRange then None
    else Some(Task(difficulty, Start, 0, None))
  }

  /** `_reset`: back to the marker. */
  function Reset(t: Task): (r: Task)
    requires Valid(t)
    ensures Valid(r) && r.phase == Start && r.phaseCount == 0 && r.deal == t.deal
  {
    t.(phase := Start, phaseCount := 0)
  }


  /** The draws one `_step` may consume. */
  datatype StepDraws = StepDraws(prep: Preparation, moves: seq<seq<real>>)

  predicate ValidStepDraws(d: StepDraws)
  {
    ValidPreparation(d.prep) && ValidMoveDraws(d.moves, 2 + DifficultyRange)
  }

  /** `_step`: START, MEMORY for 30 steps, MOVE for 60 steps (one pass of
      moves each), then RESPONSE until a button is hit. */
  function Step(t: Task, stepCount: nat, focus: Point, d: StepDraws, trig: Geom.Trig): (r: (Task, StepResult))
    requires Valid(t) && ValidStepDraws(d)
    ensures Valid(r.0) && r.0.difficulty == t.difficulty
    ensures r.1.done == DoneAt(stepCount)
    ensures r.1.reward == 0 || r.1.reward == 1
    ensures t.phase != Response ==> r.1.reward == 0 && r.1.info == NoInfo
    ensures t.phase == Start ==>
      && (r.0.phase == Memory <==> Contains(StartSprite(), focus))
      && (r.1.needRender <==> Contains(StartSprite(), focus))
      && (Contains(StartSprite(), focus) ==>
            r.0.deal == Some(PrepareBalls(t.difficulty, d.prep)) && r.0.phaseCount == 0)
    ensures t.phase == Memory ==>
      && (t.phaseCount + 1 < MemoryStepCount ==>
            r.0 == t.(phaseCount := t.phaseCount + 1) && !r.1.needRender)
      && (t.phaseCount + 1 == MemoryStepCount ==>
            r.0 == t.(phase := Moving, phaseCount := 0) && r.1.needRender)
    ensures t.phase == Moving ==>
      && r.1.needRender && r.0.deal.Some?
      && r.0.deal.value.balls == MoveAll(t.deal.value.balls, d.moves, trig)
      && r.0.deal.value.responseIndex == t.deal.value.responseIndex
      && (Separated(t.deal.value.balls) ==> Separated(r.0.deal.value.balls))
      && (t.phaseCount + 1 < MoveStepCount ==> r.0.phase == Moving && r.0.phaseCount == t.phaseCount + 1)
      && (t.phaseCount + 1 == MoveStepCount ==> r.0.phase == Response && r.0.phaseCount == 0)
    ensures t.phase == Response ==>
      var correct := t.deal.value.responseIndex == 0;
      var hit := DetectAnswer(focus);
      && (r.1.reward == 1 <==> (hit == AnswerNo && !correct) || (hit == AnswerYes && correct))
      && (r.0.phase == Start <==> hit != Unanswered)
      && (r.1.needRender <==> hit != Unanswered)
      && (hit != Unanswered ==> r.1.info == Trial(r.1.reward == 1, t.phaseCount + 1) && r.0.phaseCount == 0)
      && (hit == Unanswered ==> r.1.info == NoInfo && r.0.phaseCount == t.phaseCount + 1)
      && r.0.deal == t.deal
  {
    var done := DoneAt(stepCount);
    match t.phase
    case Start =>
      if Contains(StartSprite(), focus) then
        (t.(phase := Memory, phaseCount := 0, deal := Some(PrepareBalls(t.difficulty, d.prep))),
         StepResult(0, done, true, NoInfo))
      else
        (t, StepResult(0, done, false, NoInfo))
    case Memory =>
      var count := t.phaseCount + 1;
      if count >= MemoryStepCount then
        (t.(phase := Moving, phaseCount := 0), StepResult(0, done, true, NoInfo))
      else
        (t.(phaseCount := count), StepResult(0, done, false, NoInfo))
    case Moving =>
      var deal := t.deal.value;
      var balls := MoveAll(deal.balls, d.moves, trig);
      MoveAllKeepsApart(deal.balls, d.moves, trig);
      var t' := t.(deal := Some(deal.(balls := balls)));
      var count := t.phaseCount + 1;
      if count >= MoveStepCount then
        (t'.(phase := Response, phaseCount := 0), StepResult(0, done, true, NoInfo))
      else
        (t'.(phaseCount := count), StepResult(0, done, true, NoInfo))
    case Response =>
      var count := t.phaseCount + 1;
      var correct := TargetCorrect(t.deal.value.balls, t.deal.value.responseIndex);
      var hit := DetectAnswer(focus);
      if hit == Unanswered then
        (t.(phaseCount := count), StepResult(0, done, false, NoInfo))
      else
        var reward := if (hit == AnswerNo && !correct) || (hit == AnswerYes && correct) then 1 else 0;
        (t.(phase := Start, phaseCount := 0), StepResult(reward, done, true, Trial(reward == 1, count)))
  }
}

=== FILE: odd_one_out.dfy ===
/** The odd-one-out task of oculoenv/contents/odd_one_out_content.py: a grid
    of identical signs with one that differs in colour, shape, orientation or
    motion; looking at the odd one earns the reward. */
module OddOneOut {
  import opened Utils
  import opened BaseContent

  /** The drawn sign is 0.8 of its cell; the hit box is the same. */
  const SignScale: real := 0.8
  const MotionIntervalFrames: nat := 2
  const JitterRate: real := 0.15
  const MotionRate: real := 0.2

  /** Number of colours (red, yellow, green, cyan, blue, magenta). */
  const ColorCount: nat := 6
  /** Number of sign textures (plus, rect, horizontal bar, vertical bar). */
  const TexCount: nat := 4
  const HorizontalBar: nat := 2

  const GridDivisions: seq<nat> := [3, 5, 7]

  datatype OddType = ColorOdd | ShapeOdd | OrientationOdd | MotionOdd

  /** `np.random.randint(0, ODD_TYPE_MAX)` mapped onto the four classes. */
  function ChooseOddType(u: real): OddType
    requires IsUnit(u)
  {
    [ColorOdd, ShapeOdd, OrientationOdd, MotionOdd][Pick(u, 4)]
  }

  /** What `_get_sign_variables` returns: the main and odd texture and
      colour indices, and whether the odd sign moves. */
  datatype SignVars = SignVars(mainTex: nat, oddTex: nat, mainColor: nat, oddColor: nat, oddMotion: bool)

  /** The draws of `_get_sign_variables`: a texture draw, a shuffled colour
      list (colour class) and a colour draw (other classes). */
  datatype VarDraw = VarDraw(tex: real, colors: seq<nat>, color: real)

  predicate ValidVarDraw(d: VarDraw)
  {
    IsUnit(d.tex) && IsPermutation(d.colors, ColorCount) && IsUnit(d.color)
  }

  /** The attribute classes: the odd sign differs from the others exactly
      in the attribute its class names. */
  predicate ClassInvariant(oddType: OddType, v: SignVars)
  {
    && v.mainTex < TexCount && v.oddTex < TexCount
    && v.mainColor < ColorCount && v.oddColor < ColorCount
    && match oddType
       case ColorOdd =>
         v.mainTex == v.oddTex && v.mainColor != v.oddColor && !v.oddMotion
       case ShapeOdd =>
         v.mainTex < 2 && v.oddTex == 1 - v.mainTex && v.mainColor == v.oddColor && !v.oddMotion
       case OrientationOdd =>
         2 <= v.mainTex && v.oddTex == 5 - v.mainTex && v.mainColor == v.oddColor && !v.oddMotion
       case MotionOdd =>
         2 <= v.mainTex && v.oddTex == v.mainTex && v.mainColor == v.oddColor && v.oddMotion
  }

  /** `_get_sign_variables(odd_type)`. */
  function SignVariables(oddType: OddType, d: VarDraw): (v: SignVars)
    requires ValidVarDraw(d)
    ensures ClassInvariant(oddType, v)
  {
    match oddType
    case ColorOdd =>
      var t := RandInt(0, 4, d.tex);
      SignVars(t, t, d.colors[0], d.colors[1], false)
    case ShapeOdd =>
      var t := RandInt(0, 2, d.tex);
      var c := RandInt(0, ColorCount, d.color);
      SignVars(t, 1 - t, c, c, false)
    case OrientationOdd =>
      var t := RandInt(2, 4, d.tex);
      var c := RandInt(0, ColorCount, d.color);
      SignVars(t, 5 - t, c, c, false)
    case MotionOdd =>
      var t := RandInt(2, 4, d.tex);
      var c := RandInt(0, ColorCount, d.color);
      SignVars(t, t, c, c, true)
  }

  /** In every class the odd sign can be told apart from the others, and in
      exactly one attribute. */
  lemma OddDiffersInOneAttribute(oddType: OddType, v: SignVars)
    requires ClassInvariant(oddType, v)
    ensures (v.mainTex != v.oddTex) || (v.mainColor != v.oddColor) || v.oddMotion
    ensures (v.mainTex != v.oddTex) ==> v.mainColor == v.oddColor && !v.oddMotion
    ensures (v.mainColor != v.oddColor) ==> v.mainTex == v.oddTex && !v.oddMotion
  {
  }

  // ---------------------------------------------------------------------
  // OddOneOutSignSprite
  // ---------------------------------------------------------------------

  /** A sign: texture and colour index, half-width of its cell, the cell
      centre (`base`), the drawn position, and the motion state. */
  datatype Sign = Sign(
    texIndex: nat, colorIndex: nat, width: real,
    baseX: real, baseY: real, x: real, y: real,
    hasMotion: bool, odd: bool, motionCount: nat, motionPosIndex: nat)

  /** Half-width of a cell in an n x n grid over [-1, 1]². */
  function CellWidth(n: nat): (w: real)
    requires n > 0
    ensures w > 0.0 && w * (n as real) == 1.0
  {
    2.0 / (2.0 * n as real)
  }

  /** Centre of cell `i` of `n` along one axis. */
  function CellCentre(n: nat, i: nat): (c: real)
    requires i < n
    ensures -1.0 + CellWidth(n) <= c <= 1.0 - CellWidth(n)
  {
    var w := CellWidth(n);
    MulNonNeg(w, 2.0 * i as real);
    MulNonNeg(w, 2.0 * (n - 1 - i) as real);
    assert w * (2.0 * (n - 1 - i) as real) == 2.0 - 2.0 * w - w * (2.0 * i as real);
    -1.0 + w * (1.0 + 2.0 * i as real)
  }

  /** `_set_motion_pos`: a fifth of a cell off centre, across the bar's length. */
  function MotionOffset(texIndex: nat, motionPosIndex: nat): (d: (real, real))
    ensures texIndex == HorizontalBar ==> d.0 == 0.0 && (d.1 == -1.0 <==> motionPosIndex == 0)
    ensures texIndex != HorizontalBar ==> d.1 == 0.0 && (d.0 == -1.0 <==> motionPosIndex == 0)
  {
    var s := if motionPosIndex == 0 then -1.0 else 1.0;
    if texIndex == HorizontalBar then (0.0, s) else (s, 0.0)
  }

  function SetMotionPos(s: Sign): (r: Sign)
    ensures r == s.(x := r.x, y := r.y)
  {
    var (dx, dy) := MotionOffset(s.texIndex, s.motionPosIndex);
    s.(x := s.baseX + dx * s.width * MotionRate, y := s.baseY + dy * s.width * MotionRate)
  }

  /** The sign in cell (i, j) of an n x n grid, as the constructor builds it:
      a moving sign starts at its first motion position, any other sign is
      jittered by up to 0.15 of a cell. */
  function MakeSign(texIndex: nat, i: nat, j: nat, n: nat, colorIndex: nat,
                    hasMotion: bool, odd: bool, jitter: Draw2): (s: Sign)
    requires i < n && j < n && IsUnit2(jitter)
    ensures s.width == CellWidth(n) && s.baseX == CellCentre(n, i) && s.baseY == CellCentre(n, j)
    ensures s.texIndex == texIndex && s.colorIndex == colorIndex
    ensures s.hasMotion == hasMotion && s.odd == odd
    ensures s.motionCount == 0 && s.motionPosIndex == 0
    ensures !hasMotion ==> Abs(s.x - s.baseX) <= JitterRate * s.width && Abs(s.y - s.baseY) <= JitterRate * s.width
  {
    var w := CellWidth(n);
    var s := Sign(texIndex, colorIndex, w, CellCentre(n, i), CellCentre(n, j), 0.0, 0.0, hasMotion, odd, 0, 0);
    if hasMotion then SetMotionPos(s)
    else
      var dx, dy := Uniform(-1.0, 1.0, jitter.u), Uniform(-1.0, 1.0, jitter.v);
      var scale := JitterRate * w;
      JitterWithin(dx, scale);
      JitterWithin(dy, scale);
      s.(x := s.baseX + dx * scale, y := s.baseY + dy * scale)
  }

  lemma JitterWithin(d: real, scale: real)
    requires -1.0 <= d <= 1.0 && scale >= 0.0
    ensures Abs(d * scale) <= scale
  {
    MulNonNeg(1.0 - d, scale);
    MulNonNeg(1.0 + d, scale);
  }

  /** `OddOneOutSignSprite.contains`: a closed box of 0.8 of the cell's
      half-width around the cell centre, whatever the drawn position. */
  function SignContains(s: Sign, p: Point): (inside: bool)
    ensures inside <==> Abs(p.x - s.baseX) <= s.width * SignScale && Abs(p.y - s.baseY) <= s.width * SignScale
  {
    var sw := s.width * SignScale;
    p.x >= s.baseX - sw && p.x <= s.baseX + sw && p.y >= s.baseY - sw && p.y <= s.baseY + sw
  }

  /** The centre cell of the 3 x 3 grid answers as the hit box predicts: a
      quarter of a cell in from the edge is inside, the cell edge outside. */
  lemma CentreSignHitBox(tex: nat, jitter: Draw2)
    requires IsUnit2(jitter)
    ensures var s := MakeSign(tex, 1, 1, 3, 0, true, true, jitter);
      var w := 2.0 / 6.0;
      && SignContains(s, Point(0.0, 0.0))
      && SignContains(s, Point(w * 0.75, 0.0)) && SignContains(s, Point(0.0, w * 0.75))
      && !SignContains(s, Point(w, 0.0)) && !SignContains(s, Point(0.0, w))
  {
    var s := MakeSign(tex, 1, 1, 3, 0, true, true, jitter);
    assert CellWidth(3) == 2.0 / 6.0;
    assert s.baseX == 0.0 && s.baseY == 0.0;
  }

  /** `1 - motion_pos_index` on the two position indices 0 and 1. */
  function Flip(i: nat): (j: nat)
    ensures i < 2 ==> j == 1 - i
  {
    if i == 0 then 1 else 0
  }

  /** `OddOneOutSignSprite.step`: a moving sign switches position on every
      second call and reports that a repaint is due. */
  function SignStep(s: Sign): (r: (Sign, bool))
    ensures r.0.width == s.width && r.0.baseX == s.baseX && r.0.baseY == s.baseY
    ensures r.0.odd == s.odd && r.0.hasMotion == s.hasMotion
    ensures r.0.texIndex == s.texIndex && r.0.colorIndex == s.colorIndex
    ensures !s.hasMotion ==> r == (s, false)
    ensures s.hasMotion ==>
      && (r.1 <==> s.motionCount + 1 >= MotionIntervalFrames)
      && (r.1 ==> r.0.motionCount == 0 && r.0.motionPosIndex == Flip(s.motionPosIndex))
      && (!r.1 ==> r.0 == s.(motionCount := s.motionCount + 1))
  {
    if s.hasMotion then
      var count := s.motionCount + 1;
      if count >= MotionIntervalFrames then
        (SetMotionPos(s.(motionPosIndex := Flip(s.motionPosIndex), motionCount := 0)), true)
      else
        (s.(motionCount := count), false)
    else
      (s, false)
  }

  /** The repaint flags of `k` consecutive `step` calls on one sign. */
  function StepTimes(s: Sign, k: nat): (r: (Sign, seq<bool>))
    ensures |r.1| == k
    ensures r.0.hasMotion == s.hasMotion
    decreases k
  {
    if k == 0 then (s, [])
    else
      var (s1, repaint) := SignStep(s);
      var (sk, flags) := StepTimes(s1, k - 1);
      (sk, [repaint] + flags)
  }

  /** A moving sign asks for a repaint on exactly every second call, counting
      the calls already made; its position index flips on each of them. */
  lemma {:induction false} MotionRepaintsEverySecondStep(s: Sign, k: nat)
    requires s.hasMotion && s.motionCount < MotionIntervalFrames && s.motionPosIndex < 2
    ensures var (sk, flags) := StepTimes(s, k);
      && (forall m | 0 <= m < k :: flags[m] <==> (s.motionCount + m + 1) % 2 == 0)
      && sk.motionCount == (s.motionCount + k) % 2
      && sk.motionPosIndex == (s.motionPosIndex + (s.motionCount + k) / 2) % 2
    decreases k
  {
    if k > 0 {
      var first := SignStep(s);
      var s1 := first.0;
      MotionRepaintsEverySecondStep(s1, k - 1);
      CountParity(s.motionCount, s.motionPosIndex, k);
      var rest := StepTimes(s1, k - 1);
      var all := StepTimes(s, k);
      assert all.0 == rest.0 && all.1 == [first.1] + rest.1;
      forall m | 0 <= m < k
        ensures all.1[m] <==> (s.motionCount + m + 1) % 2 == 0
      {
        if m > 0 {
          assert all.1[m] == rest.1[m - 1];
          assert (s1.motionCount + (m - 1) + 1) % 2 == (s.motionCount + m + 1) % 2;
        }
      }
    }
  }

  /** One step of a moving sign in counter terms: a counter at 1 wraps to 0
      and flips the position, a counter at 0 goes to 1; either way the
      parity of the calls still to come is kept. */
  lemma CountParity(c: nat, p: nat, k: nat)
    requires c < 2 && p < 2 && k > 0
    ensures var (c1, p1) := if c == 1 then (0, 1 - p) else (1, p);
      && (c1 + (k - 1)) % 2 == (c + k) % 2
      && (p1 + (c1 + (k - 1)) / 2) % 2 == (p + (c + k) / 2) % 2
  {
    if c == 1 {
      assert (k - 1 + 2) / 2 == (k - 1) / 2 + 1;
    }
  }

  /** A sign that does not move never asks for a repaint. */
  lemma {:induction false} StillSignNeverRepaints(s: Sign, k: nat)
    requires !s.hasMotion
    ensures StepTimes(s, k) == (s, seq(k, m => false))
    decreases k
  {
    if k > 0 {
      StillSignNeverRepaints(s, k - 1);
      assert SignStep(s) == (s, false);
      assert StepTimes(s, k) == (s, [false] + StepTimes(s, k - 1).1);
      assert seq(k, m => false) == [false] + seq(k - 1, m => false);
    } else {
      assert seq(k, m => false) == [];
    }
  }

  // ---------------------------------------------------------------------
  // The grid of signs
  // ---------------------------------------------------------------------

  /** The signs of an n x n grid, row-major in the x index, as
      `_prepare_sign_sprites` lays them out, with one odd sign at `odd`. */
  predicate ValidGrid(signs: seq<Sign>, n: nat, odd: nat)
  {
    && n in GridDivisions
    && |signs| == n * n
    && odd < |signs|
    && (forall k | 0 <= k < |signs| ::
          && signs[k].width == CellWidth(n)
          && signs[k].baseX == CellCentre(n, k / n)
          && signs[k].baseY == CellCentre(n, k % n)
          && (signs[k].odd <==> k == odd)
          && (signs[k].hasMotion ==> k == odd)
          && signs[k].motionCount < MotionIntervalFrames
          && signs[k].motionPosIndex < 2)
  }

  /** The draws of one `_prepare_sign_sprites`. */
  datatype GridDraw = GridDraw(oddType: real, vars: VarDraw, division: real, odd: real, jitter: seq<Draw2>)

  predicate ValidGridDraw(d: GridDraw)
  {
    && IsUnit(d.oddType) && ValidVarDraw(d.vars) && IsUnit(d.division) && IsUnit(d.odd)
    && |d.jitter| >= 49 && (forall k | 0 <= k < |d.jitter| :: IsUnit2(d.jitter[k]))
  }

  datatype Grid = Grid(signs: seq<Sign>, n: nat, odd: nat, oddType: OddType, vars: SignVars)

  /** Row and column of sign `k` in an n x n grid. */
  lemma GridIndices(k: nat, n: nat)
    requires 0 < n && k < n * n
    ensures k / n < n && k % n < n
  {
  }

  /** The n x n signs with the main attributes everywhere but at `odd`. */
  function GridSigns(v: SignVars, n: nat, odd: nat, jitter: seq<Draw2>): (signs: seq<Sign>)
    requires n in GridDivisions && odd < n * n
    requires |jitter| >= n * n && forall k | 0 <= k < |jitter| :: IsUnit2(jitter[k])
    ensures ValidGrid(signs, n, odd)
    ensures forall k | 0 <= k < |signs| && k != odd ::
      && signs[k].texIndex == v.mainTex && signs[k].colorIndex == v.mainColor
      && !signs[k].hasMotion
    ensures signs[odd].texIndex == v.oddTex && signs[odd].colorIndex == v.oddColor
    ensures signs[odd].hasMotion == v.oddMotion
  {
    seq(n * n, k requires 0 <= k < n * n =>
      GridIndices(k, n);
      var isOdd := k == odd;
      MakeSign(if isOdd then v.oddTex else v.mainTex, k / n, k % n, n,
               if isOdd then v.oddColor else v.mainColor,
               isOdd && v.oddMotion, isOdd, jitter[k]))
  }

  /** `_prepare_sign_sprites`: every sign but one takes the main texture and
      colour and stands still; the odd one takes the odd texture and colour
      and moves iff the class is motion. */
  function PrepareSigns(d: GridDraw): (g: Grid)
    requires ValidGridDraw(d)
    ensures ValidGrid(g.signs, g.n, g.odd)
    ensures ClassInvariant(g.oddType, g.vars)
    ensures forall k | 0 <= k < |g.signs| && k != g.odd ::
      && g.signs[k].texIndex == g.vars.mainTex && g.signs[k].colorIndex == g.vars.mainColor
      && !g.signs[k].hasMotion
    ensures g.signs[g.odd].texIndex == g.vars.oddTex && g.signs[g.odd].colorIndex == g.vars.oddColor
    ensures g.signs[g.odd].hasMotion == g.vars.oddMotion
  {
    var oddType := ChooseOddType(d.oddType);
    var v := SignVariables(oddType, d.vars);
    var n := GridDivisions[Pick(d.division, 3)];
    var odd := RandInt(0, n * n, d.odd);
    assert n * n <= 49;
    Grid(GridSigns(v, n, odd, d.jitter), n, odd, oddType, v)
  }

  /** `_check_odd_hit`: some odd sign's box contains the point. */
  function CheckOddHit(signs: seq<Sign>, p: Point): (hit: bool)
    ensures hit <==> exists k | 0 <= k < |signs| :: signs[k].odd && SignContains(signs[k], p)
    decreases |signs|
  {
    if |signs| == 0 then false
    else if signs[0].odd && SignContains(signs[0], p) then true
    else
      var rest := CheckOddHit(signs[1..], p);
      assert forall k | 1 <= k < |signs| :: signs[k] == signs[1..][k - 1];
      rest
  }

  /** With a single odd sign the hit test asks only about that sign. */
  lemma OddHitIsTheOddSign(signs: seq<Sign>, n: nat, odd: nat, p: Point)
    requires ValidGrid(signs, n, odd)
    ensures CheckOddHit(signs, p) <==> SignContains(signs[odd], p)
  {
  }

  /** Every sign takes one `step`; a repaint is due if any sign asks for one. */
  function StepSigns(signs: seq<Sign>): (r: (seq<Sign>, bool))
    ensures |r.0| == |signs|
    ensures forall k | 0 <= k < |signs| :: r.0[k] == SignStep(signs[k]).0
    ensures r.1 <==> exists k | 0 <= k < |signs| :: SignStep(signs[k]).1
    decreases |signs|
  {
    if |signs| == 0 then ([], false)
    else
      var (s0, repaint) := SignStep(signs[0]);
      var (rest, any) := StepSigns(signs[1..]);
      assert forall k | 1 <= k < |signs| :: signs[k] == signs[1..][k - 1];
      ([s0] + rest, repaint || any)
  }

  /** Stepping the signs keeps the grid valid and moves no hit box. */
  lemma StepSignsKeepsGrid(signs: seq<Sign>, n: nat, odd: nat, p: Point)
    requires ValidGrid(signs, n, odd)
    ensures ValidGrid(StepSigns(signs).0, n, odd)
    ensures CheckOddHit(StepSigns(signs).0, p) <==> CheckOddHit(signs, p)
  {
    var stepped := StepSigns(signs).0;
    OddHitIsTheOddSign(signs, n, odd, p);
    assert ValidGrid(stepped, n, odd);
    OddHitIsTheOddSign(stepped, n, odd, p);
  }

  /** Only the odd sign may move, so only it can cause a repaint. */
  lemma OnlyTheOddSignRepaints(signs: seq<Sign>, n: nat, odd: nat)
    requires ValidGrid(signs, n, odd)
    ensures StepSigns(signs).1 ==> signs[odd].hasMotion
  {
  }

  // ---------------------------------------------------------------------
  // The task
  // ---------------------------------------------------------------------

  datatype Phase = Start | Find

  datatype Task = Task(phase: Phase, grid: Grid, reactionStep: nat)

  predicate Valid(t: Task)
  {
    ValidGrid(t.grid.signs, t.grid.n, t.grid.odd)
  }

  /** `_init` followed by `_reset`: a first grid, START. */
  function Init(d: GridDraw): (t: Task)
    requires ValidGridDraw(d)
    ensures Valid(t) && t.phase == Start && t.reactionStep == 0
  {
    Task(Start, PrepareSigns(d), 0)
  }

  /** `_reset`: back to the marker. */
  function Reset(t: Task): (r: Task)
    ensures r.phase == Start && r.grid == t.grid && r.reactionStep == t.reactionStep
  {
    t.(phase := Start)
  }

  /** `_step`. Looking at the marker deals a fresh grid; in FIND every sign
      steps, and looking at the odd sign ends the trial with success. */
  function Step(t: Task, stepCount: nat, focus: Point, d: GridDraw): (r: (Task, StepResult))
    requires Valid(t) && ValidGridDraw(d)
    ensures Valid(r.0)
    ensures r.1.done == DoneAt(stepCount)
    ensures r.1.reward == 0 || r.1.reward == 1
    ensures t.phase == Start ==>
      && r.1.reward == 0 && r.1.info == NoInfo
      && (r.0.phase == Find <==> Contains(StartSprite(), focus))
      && (r.1.needRender <==> Contains(StartSprite(), focus))
      && (Contains(StartSprite(), focus) ==> r.0.grid == PrepareSigns(d) && r.0.reactionStep == 0)
      && (!Contains(StartSprite(), focus) ==> r.0 == t)
    ensures t.phase == Find ==>
      && (r.1.reward == 1 <==> SignContains(t.grid.signs[t.grid.odd], focus))
      && (r.0.phase == Start <==> r.1.reward == 1)
      && (r.1.reward == 1 ==> r.1.needRender && r.1.info == Trial(true, t.reactionStep + 1))
      && (r.1.reward == 0 ==> r.1.info == NoInfo)
      && r.0.reactionStep == t.reactionStep + 1
      && r.0.grid.n == t.grid.n && r.0.grid.odd == t.grid.odd
      && r.0.grid.signs == StepSigns(t.grid.signs).0
      && (r.1.reward == 0 ==> (r.1.needRender <==> StepSigns(t.grid.signs).1))
  {
    var done := DoneAt(stepCount);
    match t.phase
    case Start =>
      if Contains(StartSprite(), focus) then
        (Task(Find, PrepareSigns(d), 0), StepResult(0, done, true, NoInfo))
      else
        (t, StepResult(0, done, false, NoInfo))
    case Find =>
      var reactionStep := t.reactionStep + 1;
      var (signs, repaint) := StepSigns(t.grid.signs);
      StepSignsKeepsGrid(t.grid.signs, t.grid.n, t.grid.odd, focus);
      OddHitIsTheOddSign(t.grid.signs, t.grid.n, t.grid.odd, focus);
      var t' := Task(Find, t.grid.(signs := signs), reactionStep);
      if CheckOddHit(signs, focus) then
        (t'.(phase := Start), StepResult(1, done, true, Trial(true, reactionStep)))
      else
        (t', StepResult(0, done, repaint, NoInfo))
  }
}

=== FILE: point_to_target.dfy ===
/** The point-to-target task of oculoenv/contents/point_to_target_content.py:
    look at the central marker, then at the target (reward 2) or, when a lure
    is shown, at the lure (reward 1). */
module PointToTarget {
  import opened Utils
  import opened BaseContent

  const TargetWidthSmall: real := 0.1
  const TargetWidthLarge: real := 0.2

  /** A quarter of the panel: a centre and the extents to each side. */
  datatype Quadrant = Quadrant(cx: real, cy: real, left: real, right: real, top: real, bottom: real)

  /** `Quadrant.get_random_location(tw)`: a point whose box of half-width
      `tw` stays within the quadrant, drawn by the pair `d`. */
  function RandomLocation(q: Quadrant, tw: real, d: Draw2): (p: Point)
    requires IsUnit2(d)
    ensures var minx, maxx := q.cx - q.left + tw, q.cx + q.right - tw;
      Min(minx, maxx) <= p.x <= Max(minx, maxx)
    ensures var miny, maxy := q.cy - q.bottom + tw, q.cy + q.top - tw;
      Min(miny, maxy) <= p.y <= Max(miny, maxy)
  {
    Point(Uniform(q.cx - q.left + tw, q.cx + q.right - tw, d.u),
          Uniform(q.cy - q.bottom + tw, q.cy + q.top - tw, d.v))
  }

  /** The four quadrants, each shrunk by the start marker's half-width on
      the two sides that face the centre. */
  function Quadrants(): (qs: seq<Quadrant>)
    ensures |qs| == 4
  {
    var m := StartMarkerWidth;
    [Quadrant(0.5, 0.5, 0.5 - m, 0.5, 0.5, 0.5 - m),
     Quadrant(-0.5, 0.5, 0.5, 0.5 - m, 0.5, 0.5 - m),
     Quadrant(-0.5, -0.5, 0.5, 0.5 - m, 0.5 - m, 0.5),
     Quadrant(0.5, -0.5, 0.5 - m, 0.5, 0.5 - m, 0.5)]
  }

  /** Whether quadrant `k` lies right of / above the centre. */
  function RightHalf(k: nat): bool { k == 0 || k == 3 }
  function UpperHalf(k: nat): bool { k == 0 || k == 1 }

  /** A location drawn in quadrant k keeps its box clear of the marker and
      inside the panel, on the side of the centre the quadrant lies on. */
  lemma LocationInQuadrant(k: nat, tw: real, d: Draw2)
    requires k < 4 && 0.0 <= tw <= 0.4 && IsUnit2(d)
    ensures var p := RandomLocation(Quadrants()[k], tw, d);
      && StartMarkerWidth + tw <= Abs(p.x) <= 1.0 - tw
      && StartMarkerWidth + tw <= Abs(p.y) <= 1.0 - tw
      && (RightHalf(k) <==> p.x > 0.0)
      && (UpperHalf(k) <==> p.y > 0.0)
  {
  }

  /** Boxes drawn in two different quadrants are apart. */
  lemma DistinctQuadrantsApart(i: nat, j: nat, a: Sprite, b: Sprite, da: Draw2, db: Draw2)
    requires i < 4 && j < 4 && i != j
    requires 0.0 <= a.width <= 0.4 && 0.0 <= b.width <= 0.4
    requires IsUnit2(da) && IsUnit2(db)
    ensures BoxesApart(SetPos(a, RandomLocation(Quadrants()[i], a.width, da)),
                       SetPos(b, RandomLocation(Quadrants()[j], b.width, db)))
  {
    LocationInQuadrant(i, a.width, da);
    LocationInQuadrant(j, b.width, db);
  }

  /** `target_size == "small"` selects the small width, anything else the large. */
  function SizeWidth(size: string): (w: real)
    ensures w == TargetWidthSmall <==> size == "small"
    ensures w == TargetWidthLarge <==> size != "small"
  {
    if size == "small" then TargetWidthSmall else TargetWidthLarge
  }

  datatype Phase = Start | Target

  datatype Task = Task(phase: Phase, start: Sprite, target: Sprite, lure: Sprite, useLure: bool)

  /** The sprites keep the shapes `_init` gave them. */
  predicate Valid(t: Task)
  {
    && t.start == StartSprite()
    && (t.target.width == TargetWidthSmall || t.target.width == TargetWidthLarge)
    && (t.lure.width == TargetWidthSmall || t.lure.width == TargetWidthLarge)
    && t.target.rot == 0 && t.lure.rot == 1
  }

  /** While the targets are shown, they are clear of the marker and of each other. */
  predicate WellPlaced(t: Task)
  {
    t.phase == Target ==>
      && InteriorsDisjoint(t.target, t.start)
      && (t.useLure ==> InteriorsDisjoint(t.lure, t.start) && BoxesApart(t.target, t.lure))
  }

  /** `_init`: black "E" target and lure (turned a quarter), at the origin. */
  function Init(targetSize: string, useLure: bool, lureSize: string): (t: Task)
    ensures Valid(t) && WellPlaced(t) && t.phase == Start
    ensures t.target.width == SizeWidth(targetSize) && t.lure.width == SizeWidth(lureSize)
    ensures t.target.tex == GeneralE && t.lure.tex == GeneralE
    ensures t.target.color == Black && t.lure.color == Black
    ensures t.useLure == useLure
  {
    Task(Start, StartSprite(),
         Sprite(GeneralE, 0.0, 0.0, SizeWidth(targetSize), 0, Black),
         Sprite(GeneralE, 0.0, 0.0, SizeWidth(lureSize), 1, Black),
         useLure)
  }

  /** `_reset`: back to the marker. */
  function Reset(t: Task): (r: Task)
    ensures r.phase == Start
    ensures Valid(t) ==> Valid(r) && WellPlaced(r)
    ensures r.target == t.target && r.lure == t.lure && r.useLure == t.useLure
  {
    t.(phase := Start)
  }

  /** The draws of one `_locate_targets`: the shuffled quadrant order and a
      pair of uniforms for each of target and lure. */
  datatype Placement = Placement(order: seq<nat>, target: Draw2, lure: Draw2)

  predicate ValidPlacement(d: Placement)
  {
    IsPermutation(d.order, 4) && IsUnit2(d.target) && IsUnit2(d.lure)
  }

  /** `_locate_targets`: the target goes to the first quadrant of the
      shuffled order and, when used, the lure to the second. */
  function LocateTargets(t: Task, d: Placement): (r: Task)
    requires Valid(t) && ValidPlacement(d)
    ensures Valid(r) && r.phase == t.phase && r.useLure == t.useLure
    ensures InteriorsDisjoint(r.target, r.start)
    ensures t.useLure ==> InteriorsDisjoint(r.lure, r.start) && BoxesApart(r.target, r.lure)
    ensures !t.useLure ==> r.lure == t.lure
  {
    var tq, lq := d.order[0], d.order[1];
    var target := SetPos(t.target, RandomLocation(Quadrants()[tq], t.target.width, d.target));
    LocationInQuadrant(tq, t.target.width, d.target);
    if t.useLure then
      var lure := SetPos(t.lure, RandomLocation(Quadrants()[lq], t.lure.width, d.lure));
      LocationInQuadrant(lq, t.lure.width, d.lure);
      DistinctQuadrantsApart(tq, lq, t.target, t.lure, d.target, d.lure);
      t.(target := target, lure := lure)
    else
      t.(target := target)
  }

  /** `_step`. The source returns only (reward, done, need_render) here,
      which `BaseContent.step` cannot unpack; the model supplies an empty
      info in the fourth place. */
  function Step(t: Task, stepCount: nat, focus: Point, d: Placement): (r: (Task, StepResult))
    requires Valid(t) && ValidPlacement(d)
    ensures Valid(r.0) && (WellPlaced(t) ==> WellPlaced(r.0))
    ensures r.0.useLure == t.useLure
    ensures r.1.done == DoneAt(stepCount) && r.1.info == NoInfo
    ensures r.1.reward == 0 || r.1.reward == 1 || r.1.reward == 2
    ensures t.phase == Start ==>
      && r.1.reward == 0
      && (r.0.phase == Target <==> Contains(t.start, focus))
      && (r.1.needRender <==> Contains(t.start, focus))
    ensures t.phase == Target ==>
      && (r.1.reward == 2 <==> Contains(t.target, focus))
      && (r.1.reward == 1 <==> !Contains(t.target, focus) && t.useLure && Contains(t.lure, focus))
      && (r.0.phase == Start <==> r.1.reward > 0)
      && (r.1.needRender <==> r.1.reward > 0)
      && r.0.target == t.target && r.0.lure == t.lure
    ensures !t.useLure ==> r.1.reward != 1
  {
    var done := DoneAt(stepCount);
    if t.phase == Start then
      if Contains(t.start, focus) then
        (LocateTargets(t, d).(phase := Target), StepResult(0, done, true, NoInfo))
      else
        (t, StepResult(0, done, false, NoInfo))
    else
      var reward :=
        if Contains(t.target, focus) then 2
        else if t.useLure && Contains(t.lure, focus) then 1
        else 0;
      if reward > 0 then (t.(phase := Start), StepResult(reward, done, true, NoInfo))
      else (t, StepResult(0, done, false, NoInfo))
  }
}

=== FILE: random_dot.dfy ===
/** The random-dot motion discrimination task of
    oculoenv/contents/random_dot_content.py: after the start marker, 100
    dots drift (a share of them coherently) and the agent looks at the
    arrow of the drift direction. */
module RandomDot {
  import opened Utils
  import opened BaseContent
  import Geom

  const DotNum: nat := 100
  const DotHalfWidth: real := 0.02
  const DotSpeed: real := 0.03
  const ArrowDistance: real := 0.8
  const ArrowHalfWidth: real := 0.08
  const DotMoveRange: real := 0.6
  const DirectionCount: nat := 8

  /** The share of coherent dots for each difficulty. */
  const CoherentRates: seq<real> := [0.7, 0.5, 0.3, 0.1, 0.05]
  const DifficultyRange: nat := |CoherentRates|

  // ---------------------------------------------------------------------
  // Dots
  // ---------------------------------------------------------------------

  /** A dot: its centre and whether it drifts with the others. Its
      brightness, a function of the centre, only matters for drawing. */
  datatype Dot = Dot(x: real, y: real, coherent: bool)

  predicate InRange(v: real) { -DotMoveRange <= v <= DotMoveRange }

  predicate DotInRange(d: Dot) { InRange(d.x) && InRange(d.y) }

  predicate DotsInRange(dots: seq<Dot>)
  {
    forall k | 0 <= k < |dots| :: DotInRange(dots[k])
  }

  /** `_set_random_pos`: a centre drawn from [-0.6, 0.6]². */
  function RandomPos(d: Draw2): (p: Point)
    requires IsUnit2(d)
    ensures InRange(p.x) && InRange(p.y)
  {
    Point(Uniform(-DotMoveRange, DotMoveRange, d.u), Uniform(-DotMoveRange, DotMoveRange, d.v))
  }

  /** One axis of a coherent dot's move: add the shift, then fold back by
      the width of the range once on each side, in that order. */
  function Wrap(v: real, delta: real): (r: real)
  {
    var w := DotMoveRange * 2.0;
    var a := v + delta;
    var b := if a > DotMoveRange then a - w else a;
    if b < -DotMoveRange then b + w else b
  }

  /** From a point of the range, a shift of at most the range's width lands
      back in the range, at the shifted place moved by at most one width;
      a shift that stays inside is not folded at all. */
  lemma WrapStaysInRange(v: real, delta: real)
    requires InRange(v) && Abs(delta) <= DotMoveRange * 2.0
    ensures InRange(Wrap(v, delta))
    ensures var w := DotMoveRange * 2.0;
      || Wrap(v, delta) == v + delta
      || Wrap(v, delta) == v + delta - w
      || Wrap(v, delta) == v + delta + w
    ensures InRange(v + delta) ==> Wrap(v, delta) == v + delta
  {
  }

  /** `DotSprite.step(dx, dy)`: a coherent dot moves and wraps; any other
      dot jumps to a fresh random place drawn by `d`. */
  function StepDot(dot: Dot, dx: real, dy: real, d: Draw2): (r: Dot)
    requires IsUnit2(d)
    ensures r.coherent == dot.coherent
    ensures dot.coherent ==> r.x == Wrap(dot.x, dx) && r.y == Wrap(dot.y, dy)
    ensures !dot.coherent ==> Point(r.x, r.y) == RandomPos(d)
  {
    if dot.coherent then dot.(x := Wrap(dot.x, dx), y := Wrap(dot.y, dy))
    else
      var p := RandomPos(d);
      dot.(x := p.x, y := p.y)
  }

  /** A step by at most the range's width on each axis keeps a dot in range. */
  lemma StepDotInRange(dot: Dot, dx: real, dy: real, d: Draw2)
    requires IsUnit2(d) && DotInRange(dot)
    requires Abs(dx) <= DotMoveRange * 2.0 && Abs(dy) <= DotMoveRange * 2.0
    ensures DotInRange(StepDot(dot, dx, dy, d))
  {
    if dot.coherent {
      WrapStaysInRange(dot.x, dx);
      WrapStaysInRange(dot.y, dy);
    }
  }

  /** The loop over all dots, each with its own draw. */
  function StepDots(dots: seq<Dot>, dx: real, dy: real, draws: seq<Draw2>): (r: seq<Dot>)
    requires |draws| >= |dots| && forall k | 0 <= k < |draws| :: IsUnit2(draws[k])
    ensures |r| == |dots|
    ensures forall k | 0 <= k < |r| :: r[k] == StepDot(dots[k], dx, dy, draws[k])
  {
    seq(|dots|, k requires 0 <= k < |dots| => StepDot(dots[k], dx, dy, draws[k]))
  }

  lemma StepDotsInRange(dots: seq<Dot>, dx: real, dy: real, draws: seq<Draw2>)
    requires |draws| >= |dots| && forall k | 0 <= k < |draws| :: IsUnit2(draws[k])
    requires DotsInRange(dots)
    requires Abs(dx) <= DotMoveRange * 2.0 && Abs(dy) <= DotMoveRange * 2.0
    ensures DotsInRange(StepDots(dots, dx, dy, draws))
  {
    var r := StepDots(dots, dx, dy, draws);
    forall k | 0 <= k < |r|
      ensures DotInRange(r[k])
    {
      StepDotInRange(dots[k], dx, dy, draws[k]);
    }
  }

  /** `_init`'s dots: coherent, at random places. */
  function InitialDots(draws: seq<Draw2>): (r: seq<Dot>)
    requires |draws| >= DotNum && forall k | 0 <= k < |draws| :: IsUnit2(draws[k])
    ensures |r| == DotNum && DotsInRange(r)
    ensures forall k | 0 <= k < |r| :: r[k].coherent && Point(r[k].x, r[k].y) == RandomPos(draws[k])
  {
    seq(DotNum, k requires 0 <= k < DotNum =>
      var p := RandomPos(draws[k]);
      Dot(p.x, p.y, true))
  }

  /** `int(DOT_NUM * rate)`: the number of coherent dots. */
  function CoherentCount(rateIndex: nat): (n: nat)
    requires rateIndex < DifficultyRange
    ensures n <= DotNum
  {
    var c := (DotNum as real * CoherentRates[rateIndex]).Floor;
    assert 0 <= c <= DotNum by {
      assert 0.0 <= CoherentRates[rateIndex] <= 1.0;
    }
    c
  }

  /** The rates give 70, 50, 30, 10 and 5 coherent dots. */
  lemma CoherentCounts()
    ensures seq(DifficultyRange, k requires 0 <= k < DifficultyRange => CoherentCount(k)) == [70, 50, 30, 10, 5]
  {
    var s := seq(DifficultyRange, k requires 0 <= k < DifficultyRange => CoherentCount(k));
    assert s[0] == 70 && s[1] == 50 && s[2] == 30 && s[3] == 10 && s[4] == 5;
  }

  /** The flag loop of `_move_to_response_phase`: exactly the dots before
      index `n` are coherent; nothing else about a dot changes. */
  function SetCoherence(dots: seq<Dot>, n: nat): (r: seq<Dot>)
    ensures |r| == |dots|
    ensures forall k | 0 <= k < |r| :: r[k].coherent <==> k < n
    ensures forall k | 0 <= k < |r| :: r[k].x == dots[k].x && r[k].y == dots[k].y
  {
    seq(|dots|, k requires 0 <= k < |dots| => dots[k].(coherent := k < n))
  }

  // ---------------------------------------------------------------------
  // Arrows
  // ---------------------------------------------------------------------

  /** The heading of direction `i`: i eighths of a full turn. */
  function Heading(i: nat): real
  {
    Pi / 4.0 * i as real
  }

  /** `_prepare_arrow_sprites`: arrow i sits at distance 0.8 along heading
      i, drawn with the straight arrow when i is even and the diagonal one
      otherwise, turned by i div 2 quarter turns. */
  function Arrows(trig: Geom.Trig): (arrows: seq<Sprite>)
    ensures |arrows| == DirectionCount
  {
    seq(DirectionCount, i requires 0 <= i < DirectionCount =>
      Sprite(if i % 2 == 0 then Arrow0 else Arrow1,
             trig.cos(Heading(i)) * ArrowDistance, trig.sin(Heading(i)) * ArrowDistance,
             ArrowHalfWidth, i / 2, White))
  }

  /** Arrow i has the shape its parity selects, a quarter-turn index in
      0..3 with two arrows per index, and its place on the circle. */
  lemma ArrowLayout(trig: Geom.Trig, i: nat)
    requires i < DirectionCount
    ensures var a := Arrows(trig)[i];
      && (a.tex == Arrow0 <==> i % 2 == 0)
      && (a.tex == Arrow1 <==> i % 2 == 1)
      && a.rot < 4 && a.rot * 2 <= i < a.rot * 2 + 2
      && a.width == ArrowHalfWidth
      && a.x == trig.cos(Heading(i)) * ArrowDistance
      && a.y == trig.sin(Heading(i)) * ArrowDistance
  {
  }

  /** The index of the first arrow from `i` on that contains the point. */
  function FirstHit(arrows: seq<Sprite>, p: Point, i: nat): (r: Option<nat>)
    requires i <= |arrows|
    ensures r.None? <==> forall k | i <= k < |arrows| :: !Contains(arrows[k], p)
    ensures r.Some? ==>
      && i <= r.value < |arrows| && Contains(arrows[r.value], p)
      && forall k | i <= k < r.value :: !Contains(arrows[k], p)
    decreases |arrows| - i
  {
    if i == |arrows| then None
    else if Contains(arrows[i], p) then Some(i)
    else FirstHit(arrows, p, i + 1)
  }

  datatype ArrowHit = HitNone | HitIncorrect | HitCorrect

  /** `_check_arrow_hit`: only the first arrow containing the point counts,
      correct iff it is the arrow of the current direction. */
  function CheckArrowHit(arrows: seq<Sprite>, direction: nat, p: Point): (h: ArrowHit)
    ensures h == HitNone <==> forall k | 0 <= k < |arrows| :: !Contains(arrows[k], p)
    ensures h == HitCorrect <==>
      && direction < |arrows| && Contains(arrows[direction], p)
      && forall k | 0 <= k < direction :: !Contains(arrows[k], p)
  {
    match FirstHit(arrows, p, 0)
    case None => HitNone
    case Some(k) => if k == direction then HitCorrect else HitIncorrect
  }

  // ---------------------------------------------------------------------
  // The task
  // ---------------------------------------------------------------------

  datatype Phase = Start | Response

  datatype Task = Task(difficulty: Option<nat>, phase: Phase, dots: seq<Dot>, arrows: seq<Sprite>,
                       direction: nat, reactionStep: nat)

  predicate Valid(t: Task)
  {
    && (t.difficulty.Some? ==> t.difficulty.value < DifficultyRange)
    && |t.dots| == DotNum && DotsInRange(t.dots)
    && |t.arrows| == DirectionCount && t.direction < DirectionCount
  }

  /** Sine and cosine take values in [-1, 1]. */
  ghost predicate UnitTrig(trig: Geom.Trig)
  {
    && (forall a: real :: -1.0 <= trig.sin(a) <= 1.0)
    && (forall a: real :: -1.0 <= trig.cos(a) <= 1.0)
  }

  /** The constructor followed by `_init`: a difficulty of 5 or more fails
      the assertion; otherwise all dots start coherent at random places and
      the task waits at the marker with direction 0. */
  function Init(difficulty: Option<nat>, trig: Geom.Trig, draws: seq<Draw2>): (t: Option<Task>)
    requires |draws| >= DotNum && forall k | 0 <= k < |draws| :: IsUnit2(draws[k])
    ensures t.Some? <==> (difficulty.None? || difficulty.value < DifficultyRange)
    ensures t.Some? ==>
      && Valid(t.value) && t.value.phase == Start
      && t.value.arrows == Arrows(trig) && t.value.dots == InitialDots(draws)
      && t.value.direction == 0 && t.value.reactionStep == 0
  {
    if difficulty.Some? && difficulty.value >= DifficultyRange then None
    else Some(Task(difficulty, Start, InitialDots(draws), Arrows(trig), 0, 0))
  }

  /** `_reset`: back to the marker; nothing else changes. */
  function Reset(t: Task): (r: Task)
    ensures r.phase == Start
    ensures Valid(t) ==> Valid(r)
    ensures r == t.(phase := Start)
  {
    t.(phase := Start)
  }

  /** The draws of `_move_to_response_phase`: the direction and, without a
      fixed difficulty, the coherence index. */
  datatype Trial = Trial(direction: real, rate: real)

  predicate ValidTrial(d: Trial) { IsUnit(d.direction) && IsUnit(d.rate) }

  /** `_move_to_response_phase`. */
  function ToResponse(t: Task, d: Trial): (r: Task)
    requires Valid(t) && ValidTrial(d)
    ensures Valid(r) && r.phase == Response && r.reactionStep == 0
    ensures r.direction == RandInt(0, DirectionCount, d.direction)
    ensures var rate := if t.difficulty.Some? then t.difficulty.value else RandInt(0, DifficultyRange, d.rate);
      forall k | 0 <= k < |r.dots| :: r.dots[k].coherent <==> k < CoherentCount(rate)
    ensures forall k | 0 <= k < |r.dots| :: r.dots[k].x == t.dots[k].x && r.dots[k].y == t.dots[k].y
    ensures r.arrows == t.arrows && r.difficulty == t.difficulty
  {
    var direction := RandInt(0, DirectionCount, d.direction);
    var rate := match t.difficulty
      case Some(k) => k
      case None => RandInt(0, DifficultyRange, d.rate);
    var dots := SetCoherence(t.dots, CoherentCount(rate));
    assert DotsInRange(dots) by {
      forall k | 0 <= k < |dots| ensures DotInRange(dots[k]) {
        assert DotInRange(t.dots[k]);
      }
    }
    t.(phase := Response, dots := dots, direction := direction, reactionStep := 0)
  }

  /** The draws one `_step` may consume. */
  datatype StepDraws = StepDraws(trial: Trial, dots: seq<Draw2>)

  predicate ValidStepDraws(d: StepDraws)
  {
    && ValidTrial(d.trial)
    && |d.dots| >= DotNum && forall k | 0 <= k < |d.dots| :: IsUnit2(d.dots[k])
  }

  /** `_step`. In START a look at the marker starts a trial. In RESPONSE
      every step renders, counts a reaction step and moves the dots by
      0.03 along the current heading; a look at an arrow ends the trial,
      rewarded iff it is the arrow of that heading. */
  function Step(t: Task, stepCount: nat, focus: Point, d: StepDraws, trig: Geom.Trig): (r: (Task, StepResult))
    requires Valid(t) && ValidStepDraws(d) && UnitTrig(trig)
    ensures Valid(r.0) && r.0.difficulty == t.difficulty && r.0.arrows == t.arrows
    ensures r.1.done == DoneAt(stepCount)
    ensures r.1.reward == 0 || r.1.reward == 1
    ensures t.phase == Start ==>
      && r.1.reward == 0 && r.1.info == NoInfo
      && (r.0.phase == Response <==> Contains(StartSprite(), focus))
      && (r.1.needRender <==> Contains(StartSprite(), focus))
      && (Contains(StartSprite(), focus) ==> r.0 == ToResponse(t, d.trial))
      && (!Contains(StartSprite(), focus) ==> r.0 == t)
    ensures t.phase == Response ==>
      var hit := CheckArrowHit(t.arrows, t.direction, focus);
      && r.1.needRender
      && r.0.reactionStep == t.reactionStep + 1
      && r.0.direction == t.direction
      && r.0.dots == StepDots(t.dots, trig.cos(Heading(t.direction)) * DotSpeed,
                              trig.sin(Heading(t.direction)) * DotSpeed, d.dots)
      && (r.1.reward == 1 <==> hit == HitCorrect)
      && (r.0.phase == Start <==> hit != HitNone)
      && (hit == HitNone ==> r.1.info == NoInfo)
      && (hit != HitNone ==> r.1.info == BaseContent.Trial(hit == HitCorrect, t.reactionStep + 1))
  {
    var done := DoneAt(stepCount);
    match t.phase
    case Start =>
      if Contains(StartSprite(), focus) then
        (ToResponse(t, d.trial), StepResult(0, done, true, NoInfo))
      else
        (t, StepResult(0, done, false, NoInfo))
    case Response =>
      var reactionStep := t.reactionStep + 1;
      var heading := Heading(t.direction);
      var dx, dy := trig.cos(heading) * DotSpeed, trig.sin(heading) * DotSpeed;
      StepDotsInRange(t.dots, dx, dy, d.dots);
      var t' := t.(dots := StepDots(t.dots, dx, dy, d.dots), reactionStep := reactionStep);
      match CheckArrowHit(t.arrows, t.direction, focus)
      case HitNone =>
        (t', StepResult(0, done, true, NoInfo))
      case HitCorrect =>
        (t'.(phase := Start), StepResult(1, done, true, BaseContent.Trial(true, reactionStep)))
      case HitIncorrect =>
        (t'.(phase := Start), StepResult(0, done, true, BaseContent.Trial(false, reactionStep)))
  }
}

=== FILE: utils.dfy ===
/** Numeric helpers shared by every module: the `clamp`/angle conversions of
    oculoenv/utils.py, and the vocabulary in which random draws are passed in. */
module Utils {

  datatype Option<+T> = None | Some(value: T)

  /** The value Python's `math.pi` denotes, as an exact decimal. */
  const Pi: real := 3.141592653589793

  function Abs(r: real): real { if r < 0.0 then -r else r }

  function Min(a: real, b: real): real { if a <= b then a else b }

  function Max(a: real, b: real): real { if a >= b then a else b }

  /** `clamp(n, minn, maxn) = max(min(maxn, n), minn)`. */
  function Clamp(n: real, lo: real, hi: real): (r: real)
    ensures lo <= hi ==> lo <= r <= hi
    ensures lo <= n <= hi ==> r == n
    ensures lo <= hi && n < lo ==> r == lo
    ensures lo <= hi && hi < n ==> r == hi
    ensures hi < lo ==> r == lo
  {
    Max(Min(hi, n), lo)
  }

  /** Clamping is idempotent. */
  lemma ClampIdempotent(n: real, lo: real, hi: real)
    ensures Clamp(Clamp(n, lo, hi), lo, hi) == Clamp(n, lo, hi)
  {
  }

  function Deg2Rad(degree: real): (radian: real)
    ensures degree > 0.0 ==> radian > 0.0
  {
    degree / 180.0 * Pi
  }

  /** Note the sign flip: this is not the inverse of `Deg2Rad`. */
  function Rad2Deg(radian: real): (degree: real)
    ensures radian > 0.0 ==> degree < 0.0
  {
    radian * -180.0 / Pi
  }

  /** Converting to radians and back negates the angle. */
  lemma Rad2DegNegatesDeg2Rad(d: real)
    ensures Rad2Deg(Deg2Rad(d)) == -d
  {
    calc {
      Rad2Deg(Deg2Rad(d));
      d / 180.0 * Pi * -180.0 / Pi;
      { assert d / 180.0 * Pi * -180.0 == -d * Pi; }
      -d * Pi / Pi;
    }
  }

  // ---------------------------------------------------------------------
  // Random draws. Every call to the random sources of the original code is
  // an explicit argument here: a "unit" draw u in [0, 1), or a permutation.
  // ---------------------------------------------------------------------

  predicate IsUnit(u: real) { 0.0 <= u < 1.0 }

  /** A pair of unit draws, e.g. two `np.random.uniform` calls. */
  datatype Draw2 = Draw2(u: real, v: real)

  predicate IsUnit2(d: Draw2) { IsUnit(d.u) && IsUnit(d.v) }

  /** `np.random.uniform(low, high)` driven by the unit draw `u`. */
  function Uniform(lo: real, hi: real, u: real): (r: real)
    requires IsUnit(u)
    ensures lo <= hi ==> lo <= r <= hi
    ensures hi <= lo ==> hi <= r <= lo
  {
    var w := hi - lo;
    var t := w * u;
    ScaleWithin(w, u, t);
    lo + t
  }

  lemma MulNonNeg(a: real, b: real)
    requires a >= 0.0 && b >= 0.0
    ensures a * b >= 0.0
  {
  }

  /** Scaling by a unit draw stays between 0 and the scale: `t` is the
      product `w * u`. */
  lemma ScaleWithin(w: real, u: real, t: real)
    requires IsUnit(u) && t == w * u
    ensures w >= 0.0 ==> 0.0 <= t <= w
    ensures w <= 0.0 ==> w <= t <= 0.0
  {
    if w >= 0.0 {
      MulNonNeg(w, u);
      MulNonNeg(w, 1.0 - u);
      assert w * (1.0 - u) == w - w * u;
    } else {
      MulNonNeg(-w, u);
      MulNonNeg(-w, 1.0 - u);
      assert (-w) * (1.0 - u) == w * u - w;
    }
  }

  /** `np.random.randint(lo, hi)` (and a uniform choice among `hi - lo`
      items) driven by the unit draw `u`: an integer in [lo, hi). */
  function RandInt(lo: int, hi: int, u: real): (r: int)
    requires lo < hi && IsUnit(u)
    ensures lo <= r < hi
  {
    var n := (hi - lo) as real;
    assert n * u < n by {
      assert n * u < n * 1.0;
    }
    ScaleWithin(n, u, n * u);
    lo + (n * u).Floor
  }

  /** A uniform index into a collection of `n` items. */
  function Pick(u: real, n: nat): (k: nat)
    requires IsUnit(u) && n > 0
    ensures k < n
  {
    RandInt(0, n, u)
  }

  /** The number of items dealt for a trial: 2 + difficulty when a
      difficulty is set, else `randint(2, 2 + range)`. */
  function DealCount(difficulty: Option<nat>, range: nat, u: real): (n: nat)
    requires range > 0 && (difficulty.Some? ==> difficulty.value < range) && IsUnit(u)
    ensures 2 <= n < 2 + range
    ensures difficulty.Some? ==> n == 2 + difficulty.value
  {
    match difficulty
    case None => RandInt(2, 2 + range, u)
    case Some(d) => 2 + d
  }

  /** `p` is a permutation of 0 .. n-1, as `random.shuffle(list(range(n)))`
      produces; a prefix of it is a `random.sample` without replacement. */
  predicate IsPermutation(p: seq<nat>, n: nat)
  {
    && |p| == n
    && (forall i | 0 <= i < n :: p[i] < n)
    && (forall i, j | 0 <= i < j < n :: p[i] != p[j])
  }

  /** The elements of `xs` other than `x`, in order: the candidates a
      "choose something different" draw selects from. */
  function Without<T(==)>(xs: seq<T>, x: T): (r: seq<T>)
    ensures forall i | 0 <= i < |r| :: r[i] in xs && r[i] != x
    ensures forall i | 0 <= i < |xs| && xs[i] != x :: xs[i] in r
    ensures |r| <= |xs|
    ensures x in xs ==> |r| < |xs|
  {
    if |xs| == 0 then []
    else if xs[0] == x then Without(xs[1..], x)
    else [xs[0]] + Without(xs[1..], x)
  }

  /** Removing one value from a duplicate-free sequence removes at most one element. */
  lemma {:induction false} WithoutLength<T>(xs: seq<T>, x: T)
    requires forall i, j | 0 <= i < j < |xs| :: xs[i] != xs[j]
    ensures |Without(xs, x)| == if x in xs then |xs| - 1 else |xs|
  {
    if |xs| > 0 {
      WithoutLength(xs[1..], x);
      if xs[0] == x {
        assert x !in xs[1..];
      } else {
        assert x in xs <==> x in xs[1..];
      }
    }
  }
}

=== FILE: visual_search.dfy ===
/** The visual-search task of oculoenv/contents/visual_search_content.py:
    a few letters on a 7x7 grid; answer YES if the magenta "T" is among
    them and NO otherwise. */
module VisualSearch {
  import opened Utils
  import opened BaseContent

  const GridDivision: nat := 7
  const DifficultyRange: nat := 6
  /** Number of colours; colour 0 (magenta) is the target colour. */
  const ColorCount: nat := 5
  /** Number of letter textures; texture 0 ("T") is the target shape. */
  const TexCount: nat := 8

  /** Half-width of a cell: the grid covers [-0.8, 0.8]². */
  const SignWidth: real := (2.0 * 0.8) / (7.0 * 2.0)

  datatype Distraction = ColorDistraction | ShapeDistraction | Conjunction

  /** `np.random.randint(DISTRACTION_TYPE_MAX)` mapped onto the three kinds. */
  function ChooseDistraction(u: real): Distraction
    requires IsUnit(u)
  {
    [ColorDistraction, ShapeDistraction, Conjunction][Pick(u, 3)]
  }

  /** `_get_sign_variables(pos_index, distraction_type, has_target)`: the
      target (0, 0) in the first place when one is present, otherwise a
      distractor drawn by `u`. */
  function SignVariables(posIndex: nat, kind: Distraction, hasTarget: bool, u: real): (v: (nat, nat))
    requires IsUnit(u)
    ensures v.0 < TexCount && v.1 < ColorCount
    ensures v == (0, 0) <==> hasTarget && posIndex == 0
    ensures !(hasTarget && posIndex == 0) ==>
      && (kind == ColorDistraction ==> v.0 == 0 && 1 <= v.1)
      && (kind == ShapeDistraction ==> 1 <= v.0 && v.1 == 0)
  {
    if hasTarget && posIndex == 0 then (0, 0)
    else
      match kind
      case ColorDistraction => (0, RandInt(1, ColorCount, u))
      case ShapeDistraction => (RandInt(1, TexCount, u), 0)
      case Conjunction =>
        var index := RandInt(1, TexCount * ColorCount, u);
        ConjunctionNotTarget(index);
        (index / ColorCount, index % ColorCount)
  }

  /** A conjunction index other than 0 never decodes to the target. */
  lemma ConjunctionNotTarget(index: nat)
    requires 1 <= index < TexCount * ColorCount
    ensures index / ColorCount < TexCount && index % ColorCount < ColorCount
    ensures (index / ColorCount, index % ColorCount) != (0, 0)
  {
  }

  /** Every (texture, colour) pair but the target is a conjunction distractor:
      decoding is the inverse of `5 * tex + colour`. */
  lemma ConjunctionCoversAllDistractors(tex: nat, color: nat)
    requires tex < TexCount && color < ColorCount && (tex, color) != (0, 0)
    ensures var index := tex * ColorCount + color;
      1 <= index < TexCount * ColorCount
      && index / ColorCount == tex && index % ColorCount == color
  {
  }

  /** A `VisualSearchSignSprite` on cell `posIndex` of the 7x7 grid. */
  datatype Sign = Sign(texIndex: nat, colorIndex: nat, posIndex: nat, x: real, y: real)

  /** Centre of cell `i` along one axis. */
  function CellCentre(i: nat): (c: real)
    requires i < GridDivision
    ensures -0.8 + SignWidth <= c <= 0.8 - SignWidth
  {
    -SignWidth * 7.0 + SignWidth * (1.0 + 2.0 * i as real)
  }

  function MakeSign(texIndex: nat, posIndex: nat, colorIndex: nat): (s: Sign)
    requires posIndex < GridDivision * GridDivision
    ensures s.x == CellCentre(posIndex % GridDivision) && s.y == CellCentre(posIndex / GridDivision)
    ensures s.texIndex == texIndex && s.colorIndex == colorIndex && s.posIndex == posIndex
  {
    Sign(texIndex, colorIndex, posIndex, CellCentre(posIndex % GridDivision), CellCentre(posIndex / GridDivision))
  }

  /** `is_target`: the "T" in magenta. */
  predicate IsTarget(s: Sign)
  {
    s.texIndex == 0 && s.colorIndex == 0
  }

  /** Signs on different cells are at least a cell width apart along one axis. */
  lemma DistinctCellsApart(s: Sign, t: Sign)
    requires s.posIndex < 49 && t.posIndex < 49 && s.posIndex != t.posIndex
    requires s == MakeSign(s.texIndex, s.posIndex, s.colorIndex)
    requires t == MakeSign(t.texIndex, t.posIndex, t.colorIndex)
    ensures Abs(s.x - t.x) >= 2.0 * SignWidth || Abs(s.y - t.y) >= 2.0 * SignWidth
  {
    var a: int, b: int := s.posIndex, t.posIndex;
    assert a == 7 * (a / 7) + a % 7;
    assert b == 7 * (b / 7) + b % 7;
    if a % 7 != b % 7 {
      assert s.x - t.x == SignWidth * 2.0 * ((a % 7 - b % 7) as real);
    } else {
      assert a / 7 != b / 7;
      assert s.y - t.y == SignWidth * 2.0 * ((a / 7 - b / 7) as real);
    }
  }

  /** The draws of one `_prepare_sign_sprites`. */
  datatype Preparation = Preparation(count: real, cells: seq<nat>, dice: real, kind: real, signs: seq<real>)

  predicate ValidPreparation(d: Preparation)
  {
    && IsUnit(d.count) && IsPermutation(d.cells, 49) && IsUnit(d.dice) && IsUnit(d.kind)
    && |d.signs| >= 7 && forall i | 0 <= i < |d.signs| :: IsUnit(d.signs[i])
  }

  /** The signs of one trial on distinct cells, and whether a target was dealt. */
  datatype Deal = Deal(signs: seq<Sign>, hasTarget: bool, kind: Distraction)

  predicate ValidDeal(t: Deal)
  {
    && 2 <= |t.signs| <= 7
    && (forall i | 0 <= i < |t.signs| ::
          && t.signs[i].posIndex < 49
          && t.signs[i] == MakeSign(t.signs[i].texIndex, t.signs[i].posIndex, t.signs[i].colorIndex)
          && t.signs[i].texIndex < TexCount && t.signs[i].colorIndex < ColorCount
          && (IsTarget(t.signs[i]) <==> t.hasTarget && i == 0))
    && (forall i, j | 0 <= i < j < |t.signs| :: t.signs[i].posIndex != t.signs[j].posIndex)
  }

  /** `_prepare_sign_sprites`: at most one target, always first, and every
      other sign a distractor of the drawn kind. */
  function PrepareSigns(difficulty: Option<nat>, d: Preparation): (t: Deal)
    requires difficulty.Some? ==> difficulty.value < DifficultyRange
    requires ValidPreparation(d)
    ensures ValidDeal(t)
    ensures |t.signs| == DealCount(difficulty, DifficultyRange, d.count)
    ensures t.hasTarget <==> RandInt(0, 2, d.dice) == 1
    ensures forall i | 0 <= i < |t.signs| :: t.signs[i].posIndex == d.cells[i]
  {
    var n := DealCount(difficulty, DifficultyRange, d.count);
    var hasTarget := RandInt(0, 2, d.dice) == 1;
    var kind := ChooseDistraction(d.kind);
    var signs := seq(n, i requires 0 <= i < n =>
      var v := SignVariables(i, kind, hasTarget, d.signs[i]);
      MakeSign(v.0, d.cells[i], v.1));
    Deal(signs, hasTarget, kind)
  }

  /** `_is_target_present`: the first sign is the target. */
  function TargetPresent(t: Deal): (present: bool)
    requires ValidDeal(t)
    ensures present <==> t.hasTarget
    ensures present <==> exists i | 0 <= i < |t.signs| :: IsTarget(t.signs[i])
  {
    IsTarget(t.signs[0])
  }

  // ---------------------------------------------------------------------
  // The task
  // ---------------------------------------------------------------------

  datatype Phase = Start | Find

  datatype Task = Task(difficulty: Option<nat>, phase: Phase, deal: Option<Deal>, reactionStep: nat)

  predicate Valid(t: Task)
  {
    && (t.difficulty.Some? ==> t.difficulty.value < DifficultyRange)
    && (t.phase == Find ==> t.deal.Some?)
    && (t.deal.Some? ==> ValidDeal(t.deal.value))
  }

  /** The constructor: `_init` and `_reset` leave no signs yet and START;
      then a difficulty of 6 or more fails the assertion. */
  function Init(difficulty: Option<nat>): (t: Option<Task>)
    ensures t.Some? <==> (difficulty.None? || difficulty.value < DifficultyRange)
    ensures t.Some? ==> Valid(t.value) && t.value.phase == Start && t.value.difficulty == difficulty
  {
    if difficulty.Some? && difficulty.value >= DifficultyRange then None
    else Some(Task(difficulty, Start, None, 0))
  }

  /** `_reset`: back to the marker. */
  function Reset(t: Task): (r: Task)
    requires Valid(t)
    ensures Valid(r) && r.phase == Start && r.deal == t.deal
  {
    t.(phase := Start)
  }


  /** `_step`. Looking at the marker deals a fresh trial; in FIND, a button
      answers whether the target is present, and either answer ends the trial. */
  function Step(t: Task, stepCount: nat, focus: Point, d: Preparation): (r: (Task, StepResult))
    requires Valid(t) && ValidPreparation(d)
    ensures Valid(r.0) && r.0.difficulty == t.difficulty
    ensures r.1.done == DoneAt(stepCount)
    ensures r.1.reward == 0 || r.1.reward == 1
    ensures t.phase == Start ==>
      && r.1.reward == 0 && r.1.info == NoInfo
      && (r.0.phase == Find <==> Contains(StartSprite(), focus))
      && (r.1.needRender <==> Contains(StartSprite(), focus))
      && (Contains(StartSprite(), focus) ==>
            r.0.deal == Some(PrepareSigns(t.difficulty, d)) && r.0.reactionStep == 0)
    ensures t.phase == Find ==>
      var present := t.deal.value.hasTarget;
      var hit := DetectAnswer(focus);
      && (r.1.reward == 1 <==> (hit == AnswerNo && !present) || (hit == AnswerYes && present))
      && (r.0.phase == Start <==> hit != Unanswered)
      && (r.1.needRender <==> hit != Unanswered)
      && (hit != Unanswered ==> r.1.info == Trial(r.1.reward == 1, t.reactionStep + 1))
      && (hit == Unanswered ==> r.1.info == NoInfo && r.1.reward == 0)
      && r.0.reactionStep == t.reactionStep + 1 && r.0.deal == t.deal
  {
    var done := DoneAt(stepCount);
    match t.phase
    case Start =>
      if Contains(StartSprite(), focus) then
        (t.(phase := Find, deal := Some(PrepareSigns(t.difficulty, d)), reactionStep := 0),
         StepResult(0, done, true, NoInfo))
      else
        (t, StepResult(0, done, false, NoInfo))
    case Find =>
      var reactionStep := t.reactionStep + 1;
      var present := TargetPresent(t.deal.value);
      var hit := DetectAnswer(focus);
      if hit == Unanswered then
        (t.(reactionStep := reactionStep), StepResult(0, done, false, NoInfo))
      else
        var reward := if (hit == AnswerNo && !present) || (hit == AnswerYes && present) then 1 else 0;
        (t.(phase := Start, reactionStep := reactionStep),
         StepResult(reward, done, true, Trial(reward == 1, reactionStep)))
  }
}
